=== FILE: README.md ===
# Yatra Suraksha admin dashboard — client-side store model

This project models the entity store of the admin dashboard (`src/App.jsx`).
The dashboard holds a roster of tourists, their map markers, the alert list,
the geofence list, the recorded-video list and the map's own sources and
layers. Socket events and operator actions change this state. The model gives:

- each reducer that a socket handler or operator action applies to that state, as a pure Dafny function;
- the values the dashboard derives on every render: alert counts, icon and priority classes, "time ago" labels, video durations and safety-score bands;
- the geofence and route effects, modelled as edits to the set of layer ids on the map.

JavaScript values are modelled as a JSON-shaped datatype (`JsValue.Value`).
Records are string-keyed maps. `||`, `??`, `===`, optional property reads,
object spread and `String(v)` are written out with JavaScript's semantics.
`Store.Apply` composes the reducers into one transition per event. The
events include the map's `load`, the theme switch and the marker catch-up
effect that follows every roster change. The lemmas in `Store` prove an
invariant and frame properties of that transition:

- every marker belongs to a listed user;
- the route layers are on the map all together or not at all, and never while the route is hidden.

Modules and files:

| module | file | what it holds |
|---|---|---|
| `Options`, `Decimal`, `JsValue`, `JsNumber`, `Seqs` | `options.dfy`, `decimal.dfy`, `js_value.dfy`, `js_number.dfy`, `seqs.dfy` | option type, decimal printing and parsing, JavaScript values and their number conversion, `filter` and its laws |
| `Roster` | `roster.dfy` | `users` state: `updateUserMarker`'s roster half, presence, low battery, location stopped, batch, removal |
| `Markers` | `markers.dfy` | `markersRef` registry: creation, in-place patch, ring toggles, removal |
| `Alerts`, `AlertView` | `alerts.dfy`, `alert_view.dfy` | alert list reducers; counts, icon and priority classes |
| `Geofences`, `Videos` | `geofences.dfy`, `videos.dfy` | geofence and video list reducers |
| `Layers` | `layers.dfy` | map source/layer ids, the geofence reconcile effect, the route toggle and the route's clear button |
| `Safety` | `safety.dfy` | coordinate and score aliases and the colour band of safety-score markers |
| `TimeFormat` | `time_format.dfy` | `getRelativeTime` and `formatDuration` |
| `Store` | `store.dfy` | the whole state, one transition per event, the marker catch-up effect, map load and theme switch, invariant and frame lemmas |

## Model

| member | source | states |
|---|---|---|
| Roster.Patch | src/App.jsx:1339-1345 | The user-keyed shallow merge. Only the addressed key is added or changed. Its record has the prior keys plus the new ones, with new fields winning and old fields kept. |
| Roster.PatchTwice | src/App.jsx:1339-1345 | Writing the same fields onto the same user twice leaves the roster the first write left. |
| Roster.ReadCoords | src/App.jsx:1314-1323 | Top-level `longitude`/`latitude` win when both are not `undefined` (`null` counts as present). Otherwise the user is unlocated exactly when `location.coordinates` is falsy. A throw happens only for a truthy, non-iterable `coordinates`. |
| Roster.LocationUpdate | src/App.jsx:1308-1345 | An event without usable coordinates leaves the roster unchanged. A located one lists exactly its user key and leaves every other user's record untouched. |
| Roster.NormalizedShape | src/App.jsx:1326-1336 | The normalised record has the event's keys plus the seven normalised ones. `isOnline` falls back `isOnline ?? isActive ?? true`. `phone` and `lastUpdated` take their `||` fallbacks. `profilePicture` keeps a truthy own value, and otherwise falls back to a truthy `profilePhoto` and then to `avatar`. Every other field is copied from the event. |
| Roster.LocationUpdateRecord | src/App.jsx:1326-1345 | After a located event, the user's record is the seven normalised fields over the event's own fields over the user's earlier fields. |
| Roster.LocationUpdateIdempotent | src/App.jsx:1308-1345 | Delivering the same location event twice leaves the same roster as delivering it once. |
| Roster.LocationEventsMerge | src/App.jsx:1339-1345 | After any interleaving of location events, each user's record equals a reference definition: the shallow merge, in arrival order, of that user's located events. |
| Roster.LocationEventsListing | src/App.jsx:1315-1323 | After a run of events, a user is listed exactly when listed before or named by some located event of the run. |
| Roster.CoordinateFreeEventIsDropped | src/App.jsx:1320-1323 | A later event for a listed user that carries no coordinates (a battery-only update, say) loses its fields. |
| Roster.AllLocations | src/App.jsx:1624-1632 | `admin:all-locations` never drops a listed user. Every user it adds is named by some element of the batch. |
| Roster.AllLocationsIsEventSequence | src/App.jsx:1626-1630 | A batch with no throwing element equals the same records delivered as single `user:location` events. |
| Roster.SetPresence | src/App.jsx:1572-1581 | `user:online`/`user:offline` list the payload's user, whether or not they had coordinates. `isOnline` is forced to the event's value, payload fields are copied and other earlier fields are kept. Other users are untouched. |
| Roster.LowBatteryPatch | src/App.jsx:1753-1766 | A low-battery payload that names no user (neither `user.id` nor `userId` is truthy) changes no one. Otherwise only that user is patched: `battery` is copied and `lowBattery` is set to true. |
| Roster.LowBatteryRecord | src/App.jsx:1759-1765 | The user moves only when the payload's `location` is truthy. Without it, the record gains only `battery` and `lowBattery`. Every other earlier field is kept. |
| Roster.LowBatteryNewUserKey | src/App.jsx:1753-1766 | For a user not listed before, the created record carries neither `userId` nor `_id`, so the record's own key is "undefined". |
| Roster.StoppedPatch | src/App.jsx:1793-1802 | `user:location-stopped` marks the user offline and records `stoppedAt`. The record gains exactly those two keys and keeps every other field. |
| Roster.RemoveUser | src/App.jsx:1412-1416 | Exactly the given user leaves the roster. Every other record is unchanged. |
| Roster.RemoveUndoesFirstLocation | src/App.jsx:1407-1417 | Removing a user right after their first located event restores the roster. |
| Markers.CreatedPhoto | src/App.jsx:1249-1254 | The first truthy of `profilePicture`, `profilePhoto`, `avatar`, `image` and `photo` decides the avatar. The marker shows that value's URL exactly when it is a string starting with "http", and the generated avatar otherwise. With all five falsy it shows the generated avatar. |
| Markers.Sync | src/App.jsx:1347-1397 | Before the map loads the registry is unchanged. After that the user has exactly one marker at the new position. An existing marker's ring follows `isOnline !== false` alone and its photo changes only to a new http(s) `profilePicture`. A new marker uses the creation rules. No other marker changes. |
| Markers.SyncIdempotent | src/App.jsx:1354-1379 | Patching an existing marker twice with the same user equals patching it once. |
| Markers.SetActive | src/App.jsx:1583-1594 | The online/offline/stopped ring patch changes only an existing marker's ring. It never adds a marker. |
| Markers.Remove | src/App.jsx:1408-1411 | Exactly the user's marker is removed. |
| Markers.StatusRulesDiffer | src/App.jsx:1245-1367 | The creation rule and the patch rule disagree: a user with `isOnline: true` and `status: 'inactive'` gets a grey marker that turns green on its next update. |
| Alerts.FromSnapshot | src/App.jsx:1662-1667 | Each snapshot alert gets a truthy `id`, preferring `alertId` and then `id`. Without either, the id is `alert-`, the clock's milliseconds, `-` and the random suffix. `timestamp` equals `receivedAt`. It keeps a truthy own timestamp, then falls back to a truthy `createdAt`, then to the clock's ISO time. Every other field is copied. |
| Alerts.ActiveAlerts | src/App.jsx:1661-1668 | A non-array `alerts` payload leaves the list unchanged. An array replaces the list entry by entry, with ids preferring `alertId`. An array holding `null` or `undefined` throws and leaves the list unchanged. |
| Alerts.ActiveAlertsKeepsDistinct | src/App.jsx:1661-1668 | A snapshot whose entries carry pairwise different `alertId`s leaves a list without a repeated `alertId`, because normalisation keeps each entry's `alertId`. |
| Alerts.InsertDeduped | src/App.jsx:1699-1704 | A key already carried (under `===`) by a listed alert leaves the list unchanged. Otherwise the alert goes to the front and the old list follows it unchanged. |
| Alerts.Sos | src/App.jsx:1685-1704 | The SOS alert is prepended unless an alert with the same `alertId` is listed. |
| Alerts.LowBattery | src/App.jsx:1733-1751 | The low-battery alert is prepended unless an alert with the same `alertId` is listed. |
| Alerts.LocationStopped | src/App.jsx:1775-1791 | A stop alert is prepended exactly when `reason` is present and is not 'user_initiated'. It is not deduplicated. |
| Alerts.InsertKeepsDistinct | src/App.jsx:1699-1704 | The deduplicated inserts keep every listed `alertId` distinct. |
| Alerts.SosWithoutIdIsDropped | src/App.jsx:1701-1702 | An SOS without `alertId` counts as a duplicate of any listed alert that also lacks one, so it is dropped. |
| Alerts.StoppedIsNotDeduplicated | src/App.jsx:1789-1791 | The same significant stop delivered twice is listed twice. |
| Alerts.Resolve | src/App.jsx:1674 | `alert:resolved` removes exactly the alerts whose `id` or `alertId` is the resolved id. Every other alert keeps its multiplicity. |
| Alerts.ResolveLocal | src/App.jsx:2232-2241 | The operator's resolve removes the same alerts, but only while the socket is connected. Every alert that stays keeps its multiplicity. |
| Alerts.ResolveIdempotent | src/App.jsx:1674 | Resolving an id twice equals resolving it once. |
| Alerts.ResolveKeepsOrder | src/App.jsx:1674 | Resolution distributes over concatenation, so survivors keep their relative order. |
| Alerts.ResolveCommutes | src/App.jsx:1674 | Resolutions of two ids commute. |
| Alerts.ResolveUndoesSos | src/App.jsx:1674 | Resolving an SOS's primitive `alertId` removes whatever the SOS inserted. |
| AlertView.Counts | src/App.jsx:2281-2285 | The critical and warning counts are the numbers of list positions in each class, and neither exceeds the total. |
| AlertView.SosCounts | src/App.jsx:2282 | A fresh SOS adds one critical alert and one to the total, and no warning. A duplicate SOS changes no count. |
| AlertView.LowBatteryCounts | src/App.jsx:2283 | A fresh low-battery alert adds one warning and one to the total, and no critical alert. |
| AlertView.IconClassRecognises | src/App.jsx:2258-2268 | A type gets a specific icon exactly when it is one of the six recognised strings. The two battery aliases share an icon, as do the two geofence aliases. |
| AlertView.PriorityClassInjective | src/App.jsx:2271-2278 | No two different priorities share a non-default class. |
| AlertView.SosAlertClasses | src/App.jsx:2260 | An SOS alert shows the SOS icon and the critical class. It is counted as critical only. |
| AlertView.LowBatteryAlertClasses | src/App.jsx:2261-2262 | A low-battery alert shows the battery icon and the warning class. It is counted as a warning only. |
| AlertView.StoppedAlertClasses | src/App.jsx:2263 | A location-stopped alert shows the location icon and the info class. It is in neither count. |
| Geofences.ReplaceAll | src/App.jsx:1907-1909 | An array payload replaces the list element by element. Anything else leaves the list unchanged. |
| Geofences.ReplaceAllInstallsList | src/App.jsx:1907-1908 | Whatever the list held before, a payload carrying a list of geofence objects installs exactly that list. |
| Geofences.Create | src/App.jsx:1921 | The new geofence goes to the front and the old list follows it unchanged. |
| Geofences.Update | src/App.jsx:1928 | The length and every id are kept. Exactly the geofences whose id is `===` the update's id become the update. |
| Geofences.Delete | src/App.jsx:1938 | Exactly the geofences with the id go, and none is left. Every other geofence keeps its multiplicity. |
| Geofences.DeleteKeepsOrder | src/App.jsx:1938 | Deletion distributes over concatenation, so the geofences that stay keep their relative order. |
| Geofences.Toggle | src/App.jsx:1947 | Only the geofences with the id change. They change only in `isActive`, which takes the new value. |
| Geofences.DeleteAfterUpdate | src/App.jsx:1928-1938 | Deleting a geofence erases an earlier update to it. |
| Geofences.DeleteAfterToggle | src/App.jsx:1938-1947 | Deleting a geofence erases an earlier toggle of it. |
| Geofences.DeleteUndoesCreate | src/App.jsx:1921-1938 | Deleting a created geofence by its primitive id undoes the create. |
| Geofences.ToggleTwice | src/App.jsx:1947 | Of two toggles of the same geofence, only the last counts. |
| Geofences.DeleteIdempotent | src/App.jsx:1938 | Deleting an id twice equals deleting it once. |
| Videos.ReplaceAll | src/App.jsx:1829-1834 | An array under `videos` replaces the list element by element. Anything else leaves the list unchanged. The same rule serves `admin:user-videos` (1847-1852) and `admin:alert-videos` (1863-1868). |
| Videos.ReplaceAllInstallsList | src/App.jsx:1832-1833 | Whatever the list held before, a payload carrying a list of video objects installs exactly that list. |
| Videos.DeleteVideo | src/App.jsx:1885 | Exactly the videos with the id go. Every other video keeps its multiplicity. |
| Videos.BulkDelete | src/App.jsx:1894-1899 | A non-array `videoIds` changes nothing. Otherwise exactly the videos whose id the list includes go, and every other video keeps its multiplicity. |
| Videos.BulkDeleteOfOne | src/App.jsx:1885-1895 | A bulk delete of one id equals the single delete of that id. |
| Videos.BulkDeleteTwice | src/App.jsx:1895 | Two bulk deletes in a row equal one bulk delete of both id lists. |
| Videos.DeleteVideoIdempotent | src/App.jsx:1885 | Deleting a video twice equals deleting it once. |
| Layers.NameInjective | src/App.jsx:723-727 | Different layer ids have different MapLibre names, so a set of ids stands for the set of names on the map. |
| Layers.Triad | src/App.jsx:919-922 | The four pieces drawn for a key are exactly the geofence layer ids with that key. |
| Layers.RemoveAll | src/App.jsx:902-912 | The removal pass deletes exactly the pieces of geofences in the current list. |
| Layers.AddAll | src/App.jsx:915-995 | The drawing pass only adds. Every piece it adds belongs to a drawable geofence of the list. |
| Layers.Reconcile | src/App.jsx:881-997 | Before the map loads nothing changes. Pieces of unlisted geofences and non-geofence ids are untouched. A listed geofence keeps pieces on the map only if display is on and some geofence with its key is drawable. |
| Layers.AddAllDrawsAll | src/App.jsx:916-995 | With distinct keys and a cleared map, every drawable geofence gets all four pieces. |
| Layers.ReconcileDraws | src/App.jsx:902-996 | With distinct keys, a listed geofence has all four pieces on the map when display is on and it is drawable, and none otherwise. |
| Layers.ReconcileIdempotent | src/App.jsx:902-996 | Rerunning the reconcile on the same list and flag changes nothing. |
| Layers.DeletedGeofenceStaysDrawn | src/App.jsx:902-912 | The pieces of a deleted geofence survive the next reconcile, because removal visits only the current list. |
| Layers.RoutePath | src/App.jsx:744-747 | The path is the plottable history entries in reverse order: oldest first, since history is most recent first. |
| Layers.RoutePathEnds | src/App.jsx:743-747 | The path starts at the oldest plottable entry and ends at the most recent one. |
| Layers.ToggleRoute | src/App.jsx:720-878 | Before the map loads nothing changes. A shown route is removed, which empties the path and drops the four route ids. A hidden route is drawn exactly when at least two entries are plottable, adding the route ids and the arrow image. Otherwise nothing changes. |
| Layers.ToggleRouteConsistent | src/App.jsx:729-876 | The toggle keeps the route layers on the map exactly when the route is shown. |
| Layers.ToggleRouteKeepsWhole | src/App.jsx:720-878 | The toggle keeps the route layers all present or all absent, and absent while hidden. |
| Layers.ClearRoute | src/App.jsx:2383-2394 | The clear button removes exactly the four route ids and hides the route, before or after the map loads. Every other id is untouched. |
| Layers.ClearRouteIsToggleOff | src/App.jsx:729-735 | On a loaded map, clearing a shown route gives the same overlay as toggling it off. |
| Layers.ToggleRouteTwice | src/App.jsx:729-735 | Showing and then hiding the route restores the map, apart from the arrow image that stays registered. |
| Layers.ReconcileKeepsRoute | src/App.jsx:902-996 | The geofence reconcile changes no route layer and no route flag, so it keeps both forms of the route invariant. |
| Safety.ScoreValue | src/App.jsx:1165 | The score is `score`, else `safetyScore`, else `safety_score`, else `value`, else `rating`, each taken when it is neither null nor undefined, so a score of 0 is kept. With all five nullish it is 0. It is never nullish. |
| JsNumber.ToNumber | src/App.jsx:1168-1171 | The number conversion reads a number as itself and `undefined` or an object as NaN. |
| JsNumber.IntegerStringToNumber | src/App.jsx:1169-1170 | A value sent as a decimal integer string converts to that integer. |
| Safety.BandOf | src/App.jsx:1168-1172 | Green is exactly scores of 80 and up and amber exactly 50 to below 80. Red is everything below 50 and every value that is not a number. |
| Safety.BandMonotone | src/App.jsx:1168-1172 | A higher score never falls in a worse band. |
| Safety.Place | src/App.jsx:1154-1162 | An entry is placed exactly when both its latitude and longitude aliases are truthy, coloured by its score's band. |
| Safety.Render | src/App.jsx:1149-1234 | The rendered and skipped counts add up to the list length. The skipped count is the number of entries without both coordinates. Every entry with both coordinates has its marker drawn. |
| Safety.RenderIsPlacements | src/App.jsx:1152-1232 | The markers drawn are exactly one per entry with both coordinates, in list order, as the one-entry-at-a-time reference `Safety.Placements` places them. |
| Safety.RenderedArePlacements | src/App.jsx:1152-1232 | Every marker drawn is the placement of some entry of the list. |
| Safety.ZeroScoreIsKept | src/App.jsx:1165 | An entry scored 0 is red, whatever its other score aliases say. |
| Safety.MissingScoreIsDanger | src/App.jsx:1165-1171 | An entry with no score alias at all scores 0 and is red. |
| Safety.TopLevelCoordinatesWin | src/App.jsx:1154-1155 | Truthy top-level `latitude`/`longitude` beat every nested alias. |
| TimeFormat.UnitFor | src/App.jsx:2225-2228 | Seconds are chosen exactly for ages under a minute, negative ones included. Any other unit does not exceed the age. Minutes are chosen only under an hour and hours only under a day. |
| TimeFormat.RelativeTime | src/App.jsx:2219-2229 | A falsy timestamp gives "N/A". An invalid date gives "NaNd ago". |
| TimeFormat.RelativeTimeRoundTrip | src/App.jsx:2223-2228 | A valid timestamp's label reads back as a count `n` and a unit, where the unit is the one chosen for the age. `n` units are at most the age and `n + 1` units exceed it. |
| TimeFormat.InvalidLabelsDoNotParse | src/App.jsx:2220 | "N/A" and "NaNd ago" never read back as an age. |
| TimeFormat.PadStart2 | src/App.jsx:2364 | A string of two or more characters is unchanged. A shorter one is left-padded with '0' to exactly two characters. |
| TimeFormat.FormatDuration | src/App.jsx:2360-2364 | A falsy duration (`undefined`, `null`, 0, "", false) gives "N/A". A truthy value that is not a number gives "NaN:NaN". A number gives a label with a colon. |
| TimeFormat.DurationParts | src/App.jsx:2362-2363 | For a positive duration the minutes are non-negative and the seconds lie in 0..59. Together they make up the whole number of seconds. |
| TimeFormat.FormatDurationRoundTrip | src/App.jsx:2360-2365 | A value converting to a positive number of seconds gets an "m:ss" label that reads back as its whole number of seconds. |
| TimeFormat.NonDurationLabelsDoNotParse | src/App.jsx:2361-2364 | "N/A" and "NaN:NaN" never read back as a duration. |
| Store.UpdateUserMarker | src/App.jsx:1308-1398 | The roster update and the marker sync share the user key. Without coordinates nothing changes. With coordinates a marker is added exactly when the map has loaded. Nothing else in the store changes. |
| Store.AllLocationsBatchUsers | src/App.jsx:1624-1632 | The batch changes the roster exactly as the roster's own batch reducer does. |
| Store.Sos | src/App.jsx:1681-1726 | An SOS always opens the panel and applies the deduplicated alert insert. When the payload has both `user` and `location`, the roster gets the location update of the SOS record. Otherwise users and markers are unchanged. Nothing else changes. |
| Store.SosNeedsFlatLocation | src/App.jsx:1710-1724 | An SOS whose location lacks a flat `latitude` lists nobody, because the upsert record has no `location` to fall back on. |
| Store.Presence | src/App.jsx:1572-1621 | The presence handler applies the roster's presence patch and the ring patch keyed by `String(userId)`. It keeps every user and adds or removes no marker itself. Markers for newly located users come from the catch-up that follows. |
| Store.LowBatteryEvent | src/App.jsx:1729-1768 | The low-battery handler applies the alert insert and the roster's low-battery patch and changes nothing else, markers included. |
| Store.StoppedEvent | src/App.jsx:1771-1802 | The stop handler applies the significant-stop alert, the roster's stop patch and the grey ring on an existing marker. It keeps every user and adds no marker. |
| Store.CatchUp | src/App.jsx:2039-2049 | Before the map loads the catch-up changes nothing. After that it only adds users and markers, changes nothing else, and keeps every marker owned by a listed user. |
| Store.CatchUpMarks | src/App.jsx:2043-2046 | Every visited user with truthy `longitude` and `latitude` whose record carries its own key as id ends the run with a marker. |
| Store.CatchUpSettles | src/App.jsx:2043-2046 | A run in which no entry is listed, unmarked and located changes nothing, so the effect comes to rest. |
| Store.CatchUpMissesMiskeyedRecord | src/App.jsx:2043-2046 | An entry whose record carries a different id is upserted under that id. Its own key stays without a marker, so the effect's test still holds for it. |
| Store.LowBatteryNewUserHasNoId | src/App.jsx:1753-1766 | A low-battery alert with a location, for a user not yet listed, leaves an unmarked located entry whose record's own key is "undefined". |
| Store.LowBatteryNewUserStaysUnmarked | src/App.jsx:2039-2049 | Once the map has loaded, that entry is still unmarked after the catch-up runs over it, so the effect runs again on every roster change it causes. |
| Store.OnlineUserWithCoordinatesIsMarked | src/App.jsx:1572-1581 | A `user:online` payload with an id and truthy coordinates gets its user a marker from the catch-up that follows, once the map has loaded. |
| Store.MapLoad | src/App.jsx:2110-2111 | The map's `load` sets the flag, then the geofence reconcile and the marker catch-up run. A second `load` changes nothing. Alerts, geofences, videos and the route flag and path are untouched, and every marker still has a listed user. |
| Store.MapLoadCatchesUp | src/App.jsx:2039-2049 | Geofences that arrived before the map loaded are drawn when it loads. So is every located user whose record carries its own key, given that the roster enumeration lists every user. |
| Store.ThemeSwitch | src/App.jsx:2458-2467 | A theme change leaves only geofence layers, each drawn for a listed geofence. The display flag ends on, the route flag and path are untouched, and nothing else changes. |
| Store.ThemeSwitchDropsShownRoute | src/App.jsx:2461-2466 | A theme change while the route is shown leaves it flagged as shown with none of its layers on the map. |
| Store.ApplyPeople | src/App.jsx:1572-1802 | A roster or alert handler changes only users, markers, alerts and the panel. The panel ends open exactly when it was open or the event is an SOS. |
| Store.ApplyPeopleAndCatchUp | src/App.jsx:1572-2049 | The handler followed by the catch-up changes only users, markers, alerts and the panel, with the same panel rule. |
| Store.Redraw | src/App.jsx:881-997 | The reconcile effect changes only geofence layer ids. It leaves route layers, route state and every other part of the store unchanged. |
| Store.SetGeofences | src/App.jsx:1905-1947 | A geofence broadcast sets the new list and reruns the reconcile. Nothing but the list and geofence layers changes. |
| Store.RemoveUserMarker | src/App.jsx:1407-1417 | Exactly the user's roster entry and marker go. Nothing else changes. |
| Store.ApplyKeepsInvariant | src/App.jsx:1308-2467 | Every event keeps the store invariant: every marker has a roster entry, and the route layers are on the map all together or not at all, and never while the route is hidden. |
| Store.AllLocationsBatchKeepsInvariant | src/App.jsx:1624-1632 | The batch keeps the invariant, whichever element ends it. |
| Store.RemoveUserMarkerKeepsInvariant | src/App.jsx:1407-1417 | Removing a user keeps the invariant, because the marker goes with the roster entry. |
| Store.RosterEventFrame | src/App.jsx:1572-2049 | Roster and alert events, with the catch-up that follows them, never change geofences, the display flag, videos, map layers or the map-loaded flag. |
| Store.GeofenceEventFrame | src/App.jsx:1905-1947 | Geofence events never change users, markers, alerts, the panel, videos or the route. |
| Store.VideoEventFrame | src/App.jsx:1829-1900 | Video list responses and video deletions change only the video list. |
| Store.PanelOnlyOpensOnSos | src/App.jsx:1707 | After any event the alerts panel is open exactly when it was open before or the event was an SOS. |

## Behaviour of the code worth knowing

- A `user:location` event without coordinates is dropped whole, even when it carries other fields such as a battery level (`Roster.CoordinateFreeEventIsDropped`).
- The geofence effect removes only the layers of geofences in the current list. A deleted geofence's layers stay on the map (`Layers.DeletedGeofenceStaysDrawn`).
- The SOS and low-battery inserts deduplicate on `alertId` even when it is absent. An SOS without an id is then dropped when any listed alert also lacks one (`Alerts.SosWithoutIdIsDropped`).
- The socket listeners are registered once with an empty dependency list. So `user:location-stopped` reads the initial empty `users` object, and its alert always embeds `{id: userId}` (`Alerts.StoppedAlert`).
- A theme change discards every map layer, and only the geofences are redrawn. A route shown at that moment stays flagged as shown with nothing on the map (`Store.ThemeSwitchDropsShownRoute`), so the next toggle only clears the flag. The route invariant is therefore "all or nothing, and nothing while hidden", not "on the map exactly when shown".
- The marker catch-up passes each roster record to `updateUserMarker`, which keys the marker by the record's own `userId || _id`, not by the roster key. A low-battery alert with a location for a user not yet listed creates a record with no id (`Store.LowBatteryNewUserHasNoId`). Once the map has loaded, every catch-up run upserts an "undefined" entry and leaves that user unmarked (`Store.LowBatteryNewUserStaysUnmarked`). Each upsert is a roster change that reruns the effect, so the dashboard keeps re-rendering.

## Left out

- Rendering, the DOM, MapLibre and the socket transport are not modelled. The map is a set of layer ids, a marker is its position, ring and avatar, and a socket event is an `Event` value. Emitted requests (`admin:resolve-alert` and the rest) are not modelled.
- Clock and randomness are parameters. `Date.now()`, `new Date().toISOString()` and `Math.random()` come from `Alerts.Clock`. Each event reads the clock once, though the source calls it several times. Date parsing (`new Date(timestamp)`) is the `dateOf` parameter of `TimeFormat.RelativeTime`.
- Floating point is not modelled. Numbers are exact reals with no NaN or infinities. Invalid dates are the `None` of `dateOf`, and "NaN" labels appear only there. `toFixed`, `createCirclePolygon` and the circle geometry are left out. Large-number exponent notation in labels is left out.
- `JsValue.ToStr` gives fractional numbers and non-empty arrays a placeholder instead of JavaScript's exact text. Keys built from such ids are distinct from integer-valued keys but not faithful strings.
- `JsValue.AsRecord` spreads only objects. Spreading a string or array list element (index-wise in JavaScript) contributes no fields.
- Markers.Sync: a truthy non-string `profilePicture` makes `startsWith` throw in the source. The model treats it as "not an http URL".
- JsNumber.ToNumber: strings are read as optionally negative decimal integers only. Decimal fractions, exponents, whitespace, hex and arrays (which JavaScript converts through their string form) are treated as NaN.
- Layers.AddAll: MapLibre's throw on adding an existing source is modelled as abandoning the rest of the pass, based on whether the source id is already registered. Layer-id collisions and the throw's effect on later effects are not modelled.
- The safety-score effect's clean-up of `safety-marker-*` layers is left out: no such layers are ever added, so it removes nothing. Markers are recreated on every run, so the model computes the marker list from the scores alone.
- The selected alert, geofence, video and user, the form modes and the filter contexts are left out. They are UI selections that the list reducers also clear or update, and they carry no list state.
- `removeUserMarker` is modelled (`Store.RemoveUserMarker`), but nothing in the dashboard calls it, so no `Event` applies it.
- The geofence effect runs on every change of `geofences`, the display flag or the map-loaded flag. The model runs it after each geofence event, after the map's `load` and twice in a theme change. A geofence event that leaves an equal list still reruns it in the model; `Layers.ReconcileIdempotent` shows that such extra runs change nothing.
- The marker catch-up runs on every change of `users` or the map-loaded flag. The model runs it after each event whose handler can write the roster and after `load`. It runs once per event; a rerun triggered by its own upserts is not modelled, and `Store.LowBatteryNewUserStaysUnmarked` shows where that rerun never ends.
- The order in which `Object.entries` lists the roster is the `entries` parameter of `Store.Env`. Keys that are integer strings come first in JavaScript; the model does not fix the order and does not assume the parameter lists every key. Lemmas that need every key visited require `Store.ListsRoster`.
- The theme switch's 100 ms delay before the display flag is set again is collapsed into one step, and the new style is assumed to load. Markers are DOM elements and survive `setStyle`, as in the source.
- The water animation and the other work started by the map's `load` are left out; only the flag and the effects depending on it are modelled.
- Geofences.ReplaceAll: a `null` or `undefined` element of the payload is stored by the source and makes the reconcile throw on `geo.id`. The model stores it as an empty record instead.
- Geofences.ReplaceAll: a truthy non-array `geofences` payload is stored as is by the source and would break later `map` calls. The model leaves the list unchanged instead.
- Videos.BulkDelete: a truthy non-array `videoIds` with its own `includes` (a string) is treated as no change rather than substring matching.
- Videos.BulkDelete: a truthy number or object `videoIds` has no `includes`. The handler itself does not throw: the call runs inside the `setVideos` updater, and the `selectedVideo` test short-circuits because the listener sees the initial `null`. When the list is non-empty, the updater throws during React's render and the error unmounts the dashboard. When it is empty nothing happens. The model leaves the list unchanged in both cases.
- Markers.CreatedPhoto: a truthy non-string picture alias makes `startsWith` throw, which aborts the marker's creation and the rest of an `admin:all-locations` batch. The model shows the generated avatar instead.
- TimeFormat.FormatDuration: numbers are read through `JsNumber.ToNumber`, so a decimal-fraction string or an array is labelled "NaN:NaN" rather than converted.
- Layers.Reconcile: the fill, outline and label paint and the geofence colours are not modelled, only which ids exist.
- `users:online` only logs, so it has no `Event`. `admin:user-location-history` writes the location history, which is the `history` parameter of `Layers.ToggleRoute` rather than store state.
- Videos.ReplaceAll: a `null` or `undefined` element of `videos` is stored unchanged by the source. The next `admin:video-deleted` then throws on `v.id` inside the `setVideos` updater during render, and so does the embedded list's `key={video.id}`. The model stores it as an empty record instead.
- Videos.ReplaceAll: a truthy non-array `videos` payload is stored as is by the source. The model leaves the list unchanged instead. The pagination and filter context the same responses write are left out with the other UI selections.
- The effects that empty the video list when a user or an alert is selected (src/App.jsx:2006-2026) are left out with the selections that trigger them.

=== FILE: alert_view.dfy ===
/** Values derived from the alert list on every render: the counts by
    priority and the icon and priority class of each alert. */
module AlertView {
  import opened JsValue
  import opened Seqs
  import opened Alerts

  /** `priority === 'critical' || type === 'sos'` */
  predicate IsCritical(a: Record) {
    StrictEq(Get(a, "priority"), Str("critical")) || StrictEq(Get(a, "type"), Str("sos"))
  }

  /** `priority === 'warning' || type === 'low-battery'` */
  predicate IsWarning(a: Record) {
    StrictEq(Get(a, "priority"), Str("warning")) || StrictEq(Get(a, "type"), Str("low-battery"))
  }

  datatype AlertCounts = AlertCounts(critical: nat, warning: nat, total: nat)

  /** `alertCounts`: each count is the number of list positions in its class. */
  function Counts(alerts: Alerts): (c: AlertCounts)
    ensures c.total == |alerts|
    ensures c.critical == |Positions(alerts, IsCritical)| <= c.total
    ensures c.warning == |Positions(alerts, IsWarning)| <= c.total
  {
    FilterLengthIsPositionCount(alerts, IsCritical);
    FilterLengthIsPositionCount(alerts, IsWarning);
    AlertCounts(|Filter(alerts, IsCritical)|, |Filter(alerts, IsWarning)|, |alerts|)
  }

  /** A fresh SOS adds exactly one critical alert and no warning; a repeated one adds nothing. */
  lemma {:induction false} SosCounts(alerts: Alerts, d: Record, clock: Clock)
    ensures var before, after := Counts(alerts), Counts(Sos(alerts, d, clock));
      if HasAlertId(alerts, Get(d, "alertId")) then after == before
      else after == AlertCounts(before.critical + 1, before.warning, before.total + 1)
  {
    if !HasAlertId(alerts, Get(d, "alertId")) {
      SosAlertClasses(d, clock);
      FilterCons(SosAlert(d, clock), alerts, IsCritical);
      FilterCons(SosAlert(d, clock), alerts, IsWarning);
    }
  }

  /** A fresh low-battery alert adds exactly one warning and no critical alert. */
  lemma {:induction false} LowBatteryCounts(alerts: Alerts, d: Record, clock: Clock)
    ensures var before, after := Counts(alerts), Counts(LowBattery(alerts, d, clock));
      if HasAlertId(alerts, Get(d, "alertId")) then after == before
      else after == AlertCounts(before.critical, before.warning + 1, before.total + 1)
  {
    if !HasAlertId(alerts, Get(d, "alertId")) {
      LowBatteryAlertClasses(d, clock);
      FilterCons(LowBatteryAlert(d, clock), alerts, IsCritical);
      FilterCons(LowBatteryAlert(d, clock), alerts, IsWarning);
    }
  }

  /** `getAlertIconClass`: a `switch` on `===`, with two aliases each for
      low battery and geofence alerts. */
  function IconClass(t: Value): string {
    if StrictEq(t, Str("sos")) then "icon-sos"
    else if StrictEq(t, Str("low-battery")) || StrictEq(t, Str("low_battery")) then "icon-battery"
    else if StrictEq(t, Str("location-stopped")) then "icon-location"
    else if StrictEq(t, Str("geofence")) || StrictEq(t, Str("enter_restricted_geofence")) then "icon-geofence"
    else "icon-alert"
  }

  /** The alert types the icon mapper recognises. */
  const KnownTypes: set<string> :=
    {"sos", "low-battery", "low_battery", "location-stopped", "geofence", "enter_restricted_geofence"}

  /** Exactly the recognised type strings get a specific icon; anything else,
      including a missing type, gets the generic one. */
  lemma IconClassRecognises(t: Value)
    ensures IconClass(t) != "icon-alert" <==> t.Str? && t.s in KnownTypes
    ensures IconClass(Str("low-battery")) == IconClass(Str("low_battery")) == "icon-battery"
    ensures IconClass(Str("geofence")) == IconClass(Str("enter_restricted_geofence")) == "icon-geofence"
  {
  }

  /** `getAlertPriorityClass` */
  function PriorityClass(p: Value): string {
    if StrictEq(p, Str("critical")) then "priority-critical"
    else if StrictEq(p, Str("warning")) then "priority-warning"
    else if StrictEq(p, Str("info")) then "priority-info"
    else "priority-default"
  }

  /** The priority classes are the three named priorities and a default, and
      no two priorities share a class. */
  lemma PriorityClassInjective(p: Value, q: Value)
    requires PriorityClass(p) == PriorityClass(q) != "priority-default"
    ensures p == q
  {
  }

  /** An SOS alert shows the SOS icon and the critical class, and counts as critical only. */
  lemma SosAlertClasses(d: Record, clock: Clock)
    ensures IconClass(Get(SosAlert(d, clock), "type")) == "icon-sos"
    ensures PriorityClass(Get(SosAlert(d, clock), "priority")) == "priority-critical"
    ensures IsCritical(SosAlert(d, clock)) && !IsWarning(SosAlert(d, clock))
  {
    var s := SosAlert(d, clock);
    assert Get(s, "type") == Str("sos") && Get(s, "priority") == Str("critical");
  }

  /** A low-battery alert shows the battery icon and the warning class, and counts as a warning only. */
  lemma LowBatteryAlertClasses(d: Record, clock: Clock)
    ensures IconClass(Get(LowBatteryAlert(d, clock), "type")) == "icon-battery"
    ensures PriorityClass(Get(LowBatteryAlert(d, clock), "priority")) == "priority-warning"
    ensures !IsCritical(LowBatteryAlert(d, clock)) && IsWarning(LowBatteryAlert(d, clock))
  {
    var s := LowBatteryAlert(d, clock);
    assert Get(s, "type") == Str("low-battery") && Get(s, "priority") == Str("warning");
  }

  /** A location-stopped alert shows the location icon and the info class, and is in neither count. */
  lemma StoppedAlertClasses(d: Record, clock: Clock)
    ensures IconClass(Get(StoppedAlert(d, clock), "type")) == "icon-location"
    ensures PriorityClass(Get(StoppedAlert(d, clock), "priority")) == "priority-info"
    ensures !IsCritical(StoppedAlert(d, clock)) && !IsWarning(StoppedAlert(d, clock))
  {
    var s := StoppedAlert(d, clock);
    assert Get(s, "type") == Str("location-stopped") && Get(s, "priority") == Str("info");
  }
}

=== FILE: alerts.dfy ===
/** The alert list (`alerts` state, newest first) and the reducers that write
    it: the `admin:active-alerts` snapshot, the SOS and low-battery inserts
    deduplicated on `alertId`, the undeduplicated location-stopped insert, and
    removal on `alert:resolved` or on the operator's optimistic resolve. */
module Alerts {
  import opened JsValue
  import opened Seqs
  import Decimal

  type Alerts = seq<Record>

  /** What the reducers read from the clock and the random generator:
      `Date.now()`, `new Date().toISOString()` and the `Math.random()` text
      used for the i-th synthesised id of a snapshot. */
  datatype Clock = Clock(nowMs: int, nowIso: string, random: nat -> string)

  function AlertId(a: Record): Value {
    Get(a, "alertId")
  }

  // ---------------------------------------------------------------------------
  // admin:active-alerts

  /** One snapshot entry: its own fields, with `id` defaulted to `alertId`,
      then `id`, then `alert-<now>-<random>`, and both `timestamp` and
      `receivedAt` defaulted to `timestamp`, then `createdAt`, then now. */
  function FromSnapshot(a: Record, clock: Clock, i: nat): (r: Record)
    ensures Truthy(Get(r, "id"))
    ensures Truthy(AlertId(a)) ==> Get(r, "id") == AlertId(a)
    ensures !Truthy(AlertId(a)) && Truthy(Get(a, "id")) ==> Get(r, "id") == Get(a, "id")
    ensures Get(r, "timestamp") == Get(r, "receivedAt")
    ensures !Truthy(AlertId(a)) && !Truthy(Get(a, "id")) ==>
      Get(r, "id") == Str("alert-" + Decimal.IntToString(clock.nowMs) + "-" + clock.random(i))
    ensures Truthy(Get(a, "timestamp")) ==> Get(r, "timestamp") == Get(a, "timestamp")
    ensures !Truthy(Get(a, "timestamp")) && Truthy(Get(a, "createdAt")) ==> Get(r, "timestamp") == Get(a, "createdAt")
    ensures !Truthy(Get(a, "timestamp")) && !Truthy(Get(a, "createdAt")) ==> Get(r, "timestamp") == Str(clock.nowIso)
    ensures forall f :: f != "id" && f != "timestamp" && f != "receivedAt" ==> Get(r, f) == Get(a, f)
  {
    var stamp := Or(Or(Get(a, "timestamp"), Get(a, "createdAt")), Str(clock.nowIso));
    var id := Or(Or(AlertId(a), Get(a, "id")), Str("alert-" + Decimal.IntToString(clock.nowMs) + "-" + clock.random(i)));
    Spread(a, map["id" := id, "timestamp" := stamp, "receivedAt" := stamp])
  }

  /** `admin:active-alerts`: when `alerts` is an array the list is replaced by
      its entries, normalised; an array holding `null` or `undefined` makes
      the normalising callback throw, and the list is left as it was. */
  function ActiveAlerts(alerts: Alerts, data: Record, clock: Clock): (r: Alerts)
    ensures !Get(data, "alerts").Arr? ==> r == alerts
    ensures Get(data, "alerts").Arr? && (forall i :: 0 <= i < |Get(data, "alerts").elems| ==> !Nullish(Get(data, "alerts").elems[i])) ==>
      var xs := Get(data, "alerts").elems;
      && |r| == |xs|
      && (forall i :: 0 <= i < |xs| ==> Truthy(Get(r[i], "id")))
      && (forall i :: 0 <= i < |xs| && Truthy(AlertId(AsRecord(xs[i]))) ==> Get(r[i], "id") == AlertId(AsRecord(xs[i])))
      && (forall i, f :: 0 <= i < |xs| && f != "id" && f != "timestamp" && f != "receivedAt" ==> Get(r[i], f) == Get(AsRecord(xs[i]), f))
    ensures Get(data, "alerts").Arr? && (exists i :: 0 <= i < |Get(data, "alerts").elems| && Nullish(Get(data, "alerts").elems[i])) ==> r == alerts
  {
    match Get(data, "alerts")
    case Arr(xs) =>
      if exists i :: 0 <= i < |xs| && Nullish(xs[i]) then alerts
      else seq(|xs|, i requires 0 <= i < |xs| => FromSnapshot(AsRecord(xs[i]), clock, i))
    case _ => alerts
  }

  // ---------------------------------------------------------------------------
  // Inserts

  /** Some alert in the list carries this `alertId` under `===`. */
  predicate HasAlertId(alerts: Alerts, key: Value) {
    exists i :: 0 <= i < |alerts| && StrictEq(AlertId(alerts[i]), key)
  }

  /** `prev.some(a => a.alertId === key) ? prev : [alert, ...prev]` */
  function InsertDeduped(alerts: Alerts, alert: Record, key: Value): (r: Alerts)
    ensures HasAlertId(alerts, key) ==> r == alerts
    ensures !HasAlertId(alerts, key) ==> |r| == |alerts| + 1 && r[0] == alert && r[1..] == alerts
  {
    if HasAlertId(alerts, key) then alerts else [alert] + alerts
  }

  /** The alert `sos:emergency` builds. */
  function SosAlert(d: Record, clock: Clock): Record {
    map[
      "id" := Or(Get(d, "alertId"), Str("sos-" + Decimal.IntToString(clock.nowMs))),
      "alertId" := Get(d, "alertId"),
      "type" := Str("sos"),
      "priority" := Str("critical"),
      "user" := Get(d, "user"),
      "location" := Get(d, "location"),
      "message" := Get(d, "message"),
      "timestamp" := Get(d, "timestamp"),
      "receivedAt" := Str(clock.nowIso),
      "status" := Str("active")
    ]
  }

  /** The alert `alert:low-battery` builds. */
  function LowBatteryAlert(d: Record, clock: Clock): Record {
    map[
      "id" := Or(Get(d, "alertId"), Str("battery-" + Decimal.IntToString(clock.nowMs))),
      "alertId" := Get(d, "alertId"),
      "type" := Str("low-battery"),
      "priority" := Str("warning"),
      "user" := Get(d, "user"),
      "battery" := Get(d, "battery"),
      "location" := Get(d, "location"),
      "timestamp" := Get(d, "timestamp"),
      "receivedAt" := Str(clock.nowIso),
      "status" := Str("active")
    ]
  }

  /** The alert `user:location-stopped` builds. The handler's `users` is the
      initial empty roster captured when the socket listeners were registered,
      so the embedded user is always `{id: userId}`. */
  function StoppedAlert(d: Record, clock: Clock): Record {
    map[
      "id" := Or(Get(d, "alertId"), Str("stopped-" + Decimal.IntToString(clock.nowMs))),
      "alertId" := Get(d, "alertId"),
      "type" := Str("location-stopped"),
      "priority" := Str("info"),
      "userId" := Get(d, "userId"),
      "user" := Obj(map["id" := Get(d, "userId")]),
      "reason" := Get(d, "reason"),
      "timestamp" := Get(d, "timestamp"),
      "receivedAt" := Str(clock.nowIso),
      "status" := Str("active")
    ]
  }

  /** `sos:emergency`'s list half. */
  function Sos(alerts: Alerts, d: Record, clock: Clock): (r: Alerts)
    ensures HasAlertId(alerts, Get(d, "alertId")) ==> r == alerts
    ensures !HasAlertId(alerts, Get(d, "alertId")) ==> r == [SosAlert(d, clock)] + alerts
  {
    InsertDeduped(alerts, SosAlert(d, clock), Get(d, "alertId"))
  }

  /** `alert:low-battery`'s list half. */
  function LowBattery(alerts: Alerts, d: Record, clock: Clock): (r: Alerts)
    ensures HasAlertId(alerts, Get(d, "alertId")) ==> r == alerts
    ensures !HasAlertId(alerts, Get(d, "alertId")) ==> r == [LowBatteryAlert(d, clock)] + alerts
  {
    InsertDeduped(alerts, LowBatteryAlert(d, clock), Get(d, "alertId"))
  }

  /** Whether a stop is significant enough to raise an alert. */
  predicate Significant(d: Record) {
    Truthy(Get(d, "reason")) && !StrictEq(Get(d, "reason"), Str("user_initiated"))
  }

  /** `user:location-stopped`'s list half: prepended with no duplicate check,
      and only for a present reason other than 'user_initiated'. */
  function LocationStopped(alerts: Alerts, d: Record, clock: Clock): (r: Alerts)
    ensures Significant(d) ==> r == [StoppedAlert(d, clock)] + alerts
    ensures !Significant(d) ==> r == alerts
  {
    if Significant(d) then [StoppedAlert(d, clock)] + alerts else alerts
  }

  /** Every alertId in the list is different under `===`. */
  ghost predicate DistinctAlertIds(alerts: Alerts) {
    forall i, j :: 0 <= i < j < |alerts| ==> !StrictEq(AlertId(alerts[i]), AlertId(alerts[j]))
  }

  /** A snapshot whose entries carry pairwise different alertIds leaves a
      list without repeats: the normalisation keeps every entry's alertId. */
  lemma ActiveAlertsKeepsDistinct(alerts: Alerts, data: Record, clock: Clock)
    requires DistinctAlertIds(alerts)
    requires Get(data, "alerts").Arr? ==> var xs := Get(data, "alerts").elems;
      forall i, j :: 0 <= i < j < |xs| ==> !StrictEq(AlertId(AsRecord(xs[i])), AlertId(AsRecord(xs[j])))
    ensures DistinctAlertIds(ActiveAlerts(alerts, data, clock))
  {
    var r := ActiveAlerts(alerts, data, clock);
    if Get(data, "alerts").Arr? {
      var xs := Get(data, "alerts").elems;
      if forall i :: 0 <= i < |xs| ==> !Nullish(xs[i]) {
        forall i, j | 0 <= i < j < |r|
          ensures !StrictEq(AlertId(r[i]), AlertId(r[j]))
        {
          assert AlertId(r[i]) == AlertId(AsRecord(xs[i]));
          assert AlertId(r[j]) == AlertId(AsRecord(xs[j]));
        }
      }
    }
  }

  /** The deduplicated inserts never introduce a repeated alertId. */
  lemma InsertKeepsDistinct(alerts: Alerts, alert: Record, key: Value)
    requires DistinctAlertIds(alerts) && AlertId(alert) == key
    ensures DistinctAlertIds(InsertDeduped(alerts, alert, key))
  {
    var r := InsertDeduped(alerts, alert, key);
    if !HasAlertId(alerts, key) {
      forall i, j | 0 <= i < j < |r|
        ensures !StrictEq(AlertId(r[i]), AlertId(r[j]))
      {
        if i == 0 {
          assert r[j] == alerts[j - 1];
        } else {
          assert r[i] == alerts[i - 1] && r[j] == alerts[j - 1];
        }
      }
    }
  }

  /** An SOS without `alertId` counts as a duplicate of any listed alert that
      has none either (`undefined === undefined`), so it is silently dropped. */
  lemma SosWithoutIdIsDropped(alerts: Alerts, d: Record, clock: Clock, i: nat)
    requires i < |alerts| && AlertId(alerts[i]) == Undefined
    requires "alertId" !in d
    ensures Sos(alerts, d, clock) == alerts
  {
    assert StrictEq(AlertId(alerts[i]), Get(d, "alertId"));
  }

  /** The same significant stop delivered twice is listed twice. */
  lemma StoppedIsNotDeduplicated(alerts: Alerts, d: Record, clock: Clock)
    requires Significant(d)
    ensures var r := LocationStopped(LocationStopped(alerts, d, clock), d, clock);
      |r| == |alerts| + 2 && r[0] == r[1]
  {
  }

  // ---------------------------------------------------------------------------
  // Resolution

  /** `alert.id === x || alert.alertId === x` */
  predicate ResolvedBy(a: Record, x: Value) {
    StrictEq(Get(a, "id"), x) || StrictEq(AlertId(a), x)
  }

  /** `alert:resolved`: drop every alert whose `id` or `alertId` is `x`. */
  function Resolve(alerts: Alerts, x: Value): (r: Alerts)
    ensures |r| <= |alerts|
    ensures forall a :: a in r <==> a in alerts && !ResolvedBy(a, x)
    ensures forall a :: multiset(r)[a] == if ResolvedBy(a, x) then 0 else multiset(alerts)[a]
  {
    FilterMultiset(alerts, a => !ResolvedBy(a, x));
    Filter(alerts, a => !ResolvedBy(a, x))
  }

  /** `resolveAlert`'s optimistic removal, which happens only while connected. */
  function ResolveLocal(alerts: Alerts, x: Value, connected: bool): (r: Alerts)
    ensures !connected ==> r == alerts
    ensures connected ==> forall a :: a in r <==> a in alerts && !ResolvedBy(a, x)
    ensures connected ==> forall a :: multiset(r)[a] == if ResolvedBy(a, x) then 0 else multiset(alerts)[a]
  {
    if connected then Resolve(alerts, x) else alerts
  }

  /** Resolving the same id twice is resolving it once. */
  lemma ResolveIdempotent(alerts: Alerts, x: Value)
    ensures Resolve(Resolve(alerts, x), x) == Resolve(alerts, x)
  {
    FilterIdempotent(alerts, a => !ResolvedBy(a, x));
  }

  /** Resolution keeps the survivors' relative order: it acts on each part of a split list separately. */
  lemma ResolveKeepsOrder(front: Alerts, back: Alerts, x: Value)
    ensures Resolve(front + back, x) == Resolve(front, x) + Resolve(back, x)
  {
    FilterAppend(front, back, a => !ResolvedBy(a, x));
  }

  /** Resolutions of different ids commute. */
  lemma ResolveCommutes(alerts: Alerts, x: Value, y: Value)
    ensures Resolve(Resolve(alerts, x), y) == Resolve(Resolve(alerts, y), x)
  {
    FilterCommutes(alerts, a => !ResolvedBy(a, x), a => !ResolvedBy(a, y));
  }

  /** Resolving an SOS's id undoes its insert: whatever the SOS added is removed again. */
  lemma ResolveUndoesSos(alerts: Alerts, d: Record, clock: Clock)
    requires Primitive(Get(d, "alertId"))
    ensures Resolve(Sos(alerts, d, clock), Get(d, "alertId")) == Resolve(alerts, Get(d, "alertId"))
  {
    var x := Get(d, "alertId");
    if !HasAlertId(alerts, x) {
      var s := SosAlert(d, clock);
      assert AlertId(s) == x;
      FilterCons(s, alerts, a => !ResolvedBy(a, x));
    }
  }
}

=== FILE: decimal.dfy ===
/** Decimal rendering of integers, as JavaScript's `Number.prototype.toString`
    produces it for integral values, and the parser that inverts it. */
module Decimal {
  import opened Options

  predicate IsDigit(c: char) {
    '0' <= c <= '9'
  }

  predicate AllDigits(s: string) {
    forall i :: 0 <= i < |s| ==> IsDigit(s[i])
  }

  function DigitChar(d: nat): (c: char)
    requires d < 10
    ensures IsDigit(c)
  {
    (48 + d) as char
  }

  function DigitValue(c: char): (d: nat)
    requires IsDigit(c)
    ensures d < 10
  {
    (c as int) - 48
  }

  /** Shortest decimal form of a natural number: no sign, no leading zero. */
  function NatToString(n: nat): (s: string)
    ensures |s| >= 1 && AllDigits(s)
    ensures |s| > 1 ==> s[0] != '0'
    ensures n < 10 <==> |s| == 1
  {
    if n < 10 then [DigitChar(n)] else NatToString(n / 10) + [DigitChar(n % 10)]
  }

  /** JavaScript's rendering of an integral number: a leading '-' for negatives. */
  function IntToString(i: int): (s: string)
    ensures |s| >= 1
    ensures i < 0 <==> s[0] == '-'
  {
    if i < 0 then "-" + NatToString(-i) else NatToString(i)
  }

  /** Value of a string of decimal digits (leading zeros allowed). */
  function DigitsValue(s: string): nat
    requires AllDigits(s)
  {
    if |s| == 0 then 0 else 10 * DigitsValue(s[..|s| - 1]) + DigitValue(s[|s| - 1])
  }

  /** Parses a non-empty run of decimal digits. */
  function ParseNat(s: string): (r: Option<nat>)
    ensures r.Some? <==> |s| > 0 && AllDigits(s)
  {
    if |s| > 0 && AllDigits(s) then Some(DigitsValue(s)) else None
  }

  /** Parses an optionally negative decimal integer. */
  function ParseInt(s: string): (r: Option<int>)
    ensures |s| > 0 && s[0] != '-' ==> r == ParseNat(s)
  {
    if |s| > 0 && s[0] == '-' then
      match ParseNat(s[1..])
      case Some(n) => Some(-(n as int))
      case None => None
    else
      match ParseNat(s)
      case Some(n) => Some(n)
      case None => None
  }

  lemma {:induction false} NatToStringRoundTrip(n: nat)
    ensures ParseNat(NatToString(n)) == Some(n)
    ensures DigitsValue(NatToString(n)) == n
  {
    var s := NatToString(n);
    if n >= 10 {
      NatToStringRoundTrip(n / 10);
      assert s[..|s| - 1] == NatToString(n / 10);
      assert s[|s| - 1] == DigitChar(n % 10);
      assert DigitValue(DigitChar(n % 10)) == n % 10;
    } else {
      assert DigitValue(DigitChar(n)) == n;
      assert s[..|s| - 1] == [];
      assert DigitsValue(s) == 10 * DigitsValue([]) + DigitValue(s[0]);
    }
  }

  lemma IntToStringRoundTrip(i: int)
    ensures ParseInt(IntToString(i)) == Some(i)
  {
    var s := IntToString(i);
    if i < 0 {
      NatToStringRoundTrip(-i);
      SignedParse(NatToString(-i));
      assert s == "-" + NatToString(-i);
    } else {
      NatToStringRoundTrip(i);
      assert s == NatToString(i);
      assert IsDigit(s[0]);
    }
  }

  /** A '-' in front of a digit string negates what it parses to. */
  lemma SignedParse(t: string)
    requires ParseNat(t).Some?
    ensures ParseInt("-" + t) == Some(-(ParseNat(t).value as int))
  {
    assert ("-" + t)[1..] == t;
  }

  /** Distinct integers render to distinct strings. */
  lemma IntToStringInjective(i: int, j: int)
    requires IntToString(i) == IntToString(j)
    ensures i == j
  {
    IntToStringRoundTrip(i);
    IntToStringRoundTrip(j);
  }
}

=== FILE: geofences.dfy ===
/** The geofence list and the reducers the geofence broadcasts apply to it. */
module Geofences {
  import opened JsValue
  import opened Seqs

  type Geofences = seq<Record>

  /** `g.id === id` */
  predicate HasId(g: Record, id: Value) {
    StrictEq(Get(g, "id"), id)
  }

  /** `admin:all-geofences`: an array under `geofences` replaces the list; a
      missing or falsy one leaves it alone. */
  function ReplaceAll(gs: Geofences, data: Record): (r: Geofences)
    ensures !Get(data, "geofences").Arr? ==> r == gs
    ensures Get(data, "geofences").Arr? ==>
      var xs := Get(data, "geofences").elems;
      |r| == |xs| && forall i :: 0 <= i < |xs| ==> r[i] == AsRecord(xs[i])
  {
    match Get(data, "geofences")
    case Arr(xs) => seq(|xs|, i requires 0 <= i < |xs| => AsRecord(xs[i]))
    case _ => gs
  }

  /** The payload that sends a geofence list as an array of objects. */
  function ListPayload(list: Geofences): Record {
    map["geofences" := Arr(seq(|list|, i requires 0 <= i < |list| => Obj(list[i])))]
  }

  /** Whatever the list held before, a payload carrying a list installs exactly that list. */
  lemma ReplaceAllInstallsList(gs: Geofences, list: Geofences)
    ensures ReplaceAll(gs, ListPayload(list)) == list
  {
    var r := ReplaceAll(gs, ListPayload(list));
    assert Get(ListPayload(list), "geofences").Arr?;
    assert forall i :: 0 <= i < |list| ==> r[i] == list[i];
  }

  /** `admin:geofence-created`: the new geofence goes to the front. */
  function Create(gs: Geofences, g: Record): (r: Geofences)
    ensures |r| == |gs| + 1 && r[0] == g && r[1..] == gs
  {
    [g] + gs
  }

  /** `admin:geofence-updated`: every geofence with the update's id is
      replaced by it; the others stay where they are. */
  function Update(gs: Geofences, u: Record): (r: Geofences)
    ensures |r| == |gs|
    ensures forall i :: 0 <= i < |gs| ==> Get(r[i], "id") == Get(gs[i], "id")
    ensures forall i :: 0 <= i < |gs| && HasId(gs[i], Get(u, "id")) ==> r[i] == u
    ensures forall i :: 0 <= i < |gs| && !HasId(gs[i], Get(u, "id")) ==> r[i] == gs[i]
  {
    seq(|gs|, i requires 0 <= i < |gs| => if HasId(gs[i], Get(u, "id")) then u else gs[i])
  }

  /** `admin:geofence-deleted`: exactly the geofences with that id go. */
  function Delete(gs: Geofences, id: Value): (r: Geofences)
    ensures |r| <= |gs|
    ensures forall g :: g in r <==> g in gs && !HasId(g, id)
    ensures forall i :: 0 <= i < |r| ==> !HasId(r[i], id)
    ensures forall g :: multiset(r)[g] == if HasId(g, id) then 0 else multiset(gs)[g]
  {
    FilterMultiset(gs, g => !HasId(g, id));
    Filter(gs, g => !HasId(g, id))
  }

  /** Deletion distributes over concatenation, so the geofences that stay
      keep their relative order. */
  lemma DeleteKeepsOrder(front: Geofences, back: Geofences, id: Value)
    ensures Delete(front + back, id) == Delete(front, id) + Delete(back, id)
  {
    FilterAppend(front, back, g => !HasId(g, id));
  }

  /** `admin:geofence-toggled`: `{ ...g, isActive }` for every geofence with
      that id; nothing else changes. */
  function Toggle(gs: Geofences, id: Value, active: Value): (r: Geofences)
    ensures |r| == |gs|
    ensures forall i :: 0 <= i < |gs| ==> HasId(r[i], id) == HasId(gs[i], id)
    ensures forall i :: 0 <= i < |gs| && HasId(gs[i], id) ==>
      && r[i].Keys == gs[i].Keys + {"isActive"}
      && Get(r[i], "isActive") == active
      && forall f :: f != "isActive" ==> Get(r[i], f) == Get(gs[i], f)
    ensures forall i :: 0 <= i < |gs| && !HasId(gs[i], id) ==> r[i] == gs[i]
  {
    seq(|gs|, i requires 0 <= i < |gs| =>
      if HasId(gs[i], id) then Spread(gs[i], map["isActive" := active]) else gs[i])
  }

  /** Applying the same update twice is applying it once. */
  lemma UpdateIdempotent(gs: Geofences, u: Record)
    ensures Update(Update(gs, u), u) == Update(gs, u)
  {
  }

  /** Deleting a geofence erases any update made to it beforehand. */
  lemma DeleteAfterUpdate(gs: Geofences, u: Record)
    ensures Delete(Update(gs, u), Get(u, "id")) == Delete(gs, Get(u, "id"))
  {
    var id := Get(u, "id");
    FilterAgrees(Update(gs, u), gs, g => !HasId(g, id), g => !HasId(g, id));
  }

  /** Deleting a geofence erases any toggle made to it beforehand. */
  lemma DeleteAfterToggle(gs: Geofences, id: Value, active: Value)
    ensures Delete(Toggle(gs, id, active), id) == Delete(gs, id)
  {
    FilterAgrees(Toggle(gs, id, active), gs, g => !HasId(g, id), g => !HasId(g, id));
  }

  /** Deleting a created geofence by its id undoes the create. */
  lemma DeleteUndoesCreate(gs: Geofences, g: Record)
    requires Primitive(Get(g, "id"))
    ensures Delete(Create(gs, g), Get(g, "id")) == Delete(gs, Get(g, "id"))
  {
    var id := Get(g, "id");
    assert HasId(g, id);
    FilterCons(g, gs, g' => !HasId(g', id));
  }

  /** Only the last of two toggles of the same geofence counts. */
  lemma ToggleTwice(gs: Geofences, id: Value, a: Value, b: Value)
    ensures Toggle(Toggle(gs, id, a), id, b) == Toggle(gs, id, b)
  {
    var once, twice, direct := Toggle(gs, id, a), Toggle(Toggle(gs, id, a), id, b), Toggle(gs, id, b);
    forall i | 0 <= i < |gs|
      ensures twice[i] == direct[i]
    {
      if HasId(gs[i], id) {
        assert twice[i] == Spread(once[i], map["isActive" := b]);
        assert twice[i] == Spread(gs[i], map["isActive" := b]);
      }
    }
  }

  /** Deleting is idempotent. */
  lemma DeleteIdempotent(gs: Geofences, id: Value)
    ensures Delete(Delete(gs, id), id) == Delete(gs, id)
  {
    FilterIdempotent(gs, g => !HasId(g, id));
  }
}

=== FILE: js_number.dfy ===
/** JavaScript's conversion of a value to a number, used by relational
    comparisons and arithmetic. */
module JsNumber {
  import opened Options
  import opened JsValue
  import Decimal

  /** JavaScript's conversion of a value to a number, as in `val >= 80` or
      `seconds / 60`; `None` stands for NaN, which fails every comparison. Strings are read as
      optionally negative decimal integers. */
  function ToNumber(v: Value): (r: Option<real>)
    ensures v.Num? ==> r == Some(v.n)
    ensures v.Undefined? || v.Obj? ==> r == None
  {
    match v
    case Undefined => None
    case Null => Some(0.0)
    case Bool(b) => Some(if b then 1.0 else 0.0)
    case Num(n) => Some(n)
    case Str(s) =>
      if s == "" then Some(0.0)
      else (match Decimal.ParseInt(s) case Some(i) => Some(i as real) case None => None)
    case Arr(_) => None
    case Obj(_) => None
  }

  /** A score written as a decimal integer string converts to that number. */
  lemma IntegerStringToNumber(i: int)
    ensures ToNumber(Str(Decimal.IntToString(i))) == Some(i as real)
  {
    Decimal.IntToStringRoundTrip(i);
  }

  /** A value converting to a number other than 0 is truthy. */
  lemma NonZeroIsTruthy(v: Value)
    requires ToNumber(v).Some? && ToNumber(v).value != 0.0
    ensures Truthy(v)
  {
  }
}

=== FILE: js_value.dfy ===
/** The slice of JavaScript's value semantics the dashboard's reducers rely on:
    truthiness, `||`, `??`, `===`, property reads, object spread and the string
    conversion used for property keys and template literals. */
module JsValue {
  import opened Options
  import Decimal

  /** A JSON-shaped JavaScript value. Numbers are exact reals (no NaN, no infinities). */
  datatype Value =
    | Undefined
    | Null
    | Bool(b: bool)
    | Num(n: real)
    | Str(s: string)
    | Arr(elems: seq<Value>)
    | Obj(fields: map<string, Value>)

  /** A plain object: its own enumerable keys and their values. A key bound to
      `Undefined` is present (it overwrites on spread) but reads like an absent one. */
  type Record = map<string, Value>

  /** `r[k]` on a plain object. */
  function Get(r: Record, k: string): Value {
    if k in r then r[k] else Undefined
  }

  /** `v?.k`: property read that yields `undefined` on anything but an object.
      The keys the dashboard reads are never built-in properties of strings or arrays. */
  function Member(v: Value, k: string): Value {
    match v
    case Obj(m) => Get(m, k)
    case _ => Undefined
  }

  /** The fields an object spread `{...v}` contributes (strings and arrays as
      list elements are not spread index-wise; see the README). */
  function AsRecord(v: Value): Record {
    match v
    case Obj(m) => m
    case _ => map[]
  }

  predicate Truthy(v: Value) {
    match v
    case Undefined => false
    case Null => false
    case Bool(b) => b
    case Num(n) => n != 0.0
    case Str(s) => s != ""
    case Arr(_) => true
    case Obj(_) => true
  }

  predicate Nullish(v: Value) {
    v.Undefined? || v.Null?
  }

  /** `a || b` */
  function Or(a: Value, b: Value): (r: Value)
    ensures Truthy(a) ==> r == a
    ensures !Truthy(a) ==> r == b
  {
    if Truthy(a) then a else b
  }

  /** `a ?? b` */
  function Coalesce(a: Value, b: Value): (r: Value)
    ensures !Nullish(a) ==> r == a
    ensures Nullish(a) ==> r == b
  {
    if Nullish(a) then b else a
  }

  /** `v0 || v1 || ... || vn`: the first truthy alias, else the last one. */
  function OrAll(vs: seq<Value>): (r: Value)
    requires |vs| > 0
    ensures forall i :: 0 <= i < |vs| && Truthy(vs[i]) && (forall j :: 0 <= j < i ==> !Truthy(vs[j])) ==> r == vs[i]
    ensures (forall j :: 0 <= j < |vs| ==> !Truthy(vs[j])) ==> r == vs[|vs| - 1]
  {
    if |vs| == 1 then vs[0] else Or(vs[0], OrAll(vs[1..]))
  }

  /** `v0 ?? v1 ?? ... ?? vn`: the first alias that is neither null nor undefined, else the last one. */
  function CoalesceAll(vs: seq<Value>): (r: Value)
    requires |vs| > 0
    ensures forall i :: 0 <= i < |vs| && !Nullish(vs[i]) && (forall j :: 0 <= j < i ==> Nullish(vs[j])) ==> r == vs[i]
    ensures (forall j :: 0 <= j < |vs| ==> Nullish(vs[j])) ==> r == vs[|vs| - 1]
  {
    if |vs| == 1 then vs[0] else Coalesce(vs[0], CoalesceAll(vs[1..]))
  }

  predicate Primitive(v: Value) {
    !v.Arr? && !v.Obj?
  }

  /** `a === b`. Arrays and objects compare by reference; the operands the
      dashboard compares always come from separately decoded payloads, so two
      of them are never the same reference. */
  predicate StrictEq(a: Value, b: Value) {
    Primitive(a) && a == b
  }

  /** JavaScript `String(v)`, as used for property keys and `${v}`.
      Fractional numbers and non-empty arrays get a fixed placeholder. */
  function ToStr(v: Value): string {
    match v
    case Undefined => "undefined"
    case Null => "null"
    case Bool(b) => if b then "true" else "false"
    case Num(n) => if n == n.Floor as real then Decimal.IntToString(n.Floor) else "[fraction]"
    case Str(s) => s
    case Arr(xs) => if |xs| == 0 then "" else "[array]"
    case Obj(_) => "[object Object]"
  }

  /** `s.startsWith('http')` for a string `s`. */
  predicate StartsWithHttp(s: string) {
    |s| >= 4 && s[..4] == "http"
  }

  /** Object spread: `{...a, ...b}`. Every key of `b` wins, including those bound to `undefined`. */
  function Spread(a: Record, b: Record): (r: Record)
    ensures r.Keys == a.Keys + b.Keys
    ensures forall k :: k in b ==> r[k] == b[k]
    ensures forall k :: k in a && k !in b ==> r[k] == a[k]
  {
    a + b
  }
}

=== FILE: layers.dfy ===
/** The map's sources and layers, as the set of ids that exist on the map,
    and the two effects that edit it: the geofence reconcile and the route
    toggle. */
module Layers {
  import opened Options
  import opened JsValue
  import opened Seqs
  import Geofences

  /** The four pieces drawn for each geofence. */
  datatype Part = Source | Fill | Outline | Label

  /** A source, layer or image id the model tracks. */
  datatype LayerId =
    | Geo(part: Part, key: string)
    | RouteSource | RouteLine | RoutePoints | RouteArrows
    | ArrowImage

  type Registry = set<LayerId>

  /** The id string MapLibre sees. */
  function Name(l: LayerId): string {
    match l
    case Geo(Source, k) => "geofence-source-" + k
    case Geo(Fill, k) => "geofence-fill-" + k
    case Geo(Outline, k) => "geofence-outline-" + k
    case Geo(Label, k) => "geofence-label-" + k
    case RouteSource => "user-route-source"
    case RouteLine => "user-route-layer"
    case RoutePoints => "user-route-points"
    case RouteArrows => "user-route-arrows"
    case ArrowImage => "route-arrow"
  }

  predicate HasPrefix(s: string, p: string) {
    |p| <= |s| && s[..|p|] == p
  }

  /** Reads a tracked id back from its name. */
  function Parse(s: string): (r: Option<LayerId>)
    ensures r.Some? ==> Name(r.value) == s
  {
    if HasPrefix(s, "geofence-source-") then Some(Geo(Source, s[16..]))
    else if HasPrefix(s, "geofence-fill-") then Some(Geo(Fill, s[14..]))
    else if HasPrefix(s, "geofence-outline-") then Some(Geo(Outline, s[17..]))
    else if HasPrefix(s, "geofence-label-") then Some(Geo(Label, s[15..]))
    else if s == "user-route-source" then Some(RouteSource)
    else if s == "user-route-layer" then Some(RouteLine)
    else if s == "user-route-points" then Some(RoutePoints)
    else if s == "user-route-arrows" then Some(RouteArrows)
    else if s == "route-arrow" then Some(ArrowImage)
    else None
  }

  /** Every tracked id is read back from its name. */
  lemma ParseName(l: LayerId)
    ensures Parse(Name(l)) == Some(l)
  {
    if l.Geo? {
      ParseGeoName(l.part, l.key);
    } else {
      var s := Name(l);
      assert s[0] != 'g';
      assert !HasPrefix(s, "geofence-source-") && !HasPrefix(s, "geofence-fill-")
        && !HasPrefix(s, "geofence-outline-") && !HasPrefix(s, "geofence-label-") by {
        assert "geofence-"[0] == 'g';
      }
    }
  }

  lemma ParseGeoName(part: Part, k: string)
    ensures Parse(Name(Geo(part, k))) == Some(Geo(part, k))
  {
    var s := Name(Geo(part, k));
    var n := |s| - |k|;
    assert s[n..] == k;
    assert s[..9] == "geofence-";
    if part != Source {
      assert s[9] != 's';
      assert !HasPrefix(s, "geofence-source-");
    }
    if part != Fill {
      assert s[9] != 'f';
      assert !HasPrefix(s, "geofence-fill-");
    }
    if part != Outline {
      assert s[9] != 'o';
      assert !HasPrefix(s, "geofence-outline-");
    }
  }

  /** Distinct tracked ids have distinct names, so a set of `LayerId`s
      stands for the set of strings on the map. */
  lemma NameInjective(a: LayerId, b: LayerId)
    requires Name(a) == Name(b)
    ensures a == b
  {
    ParseName(a);
    ParseName(b);
  }

  // ---------------------------------------------------------------------------
  // Geofence reconcile

  /** `${geo.id}` */
  function Key(g: Record): string {
    ToStr(Get(g, "id"))
  }

  /** The layers of one geofence. */
  predicate OfKey(l: LayerId, k: string) {
    l.Geo? && l.key == k
  }

  /** The source and three layers drawn for key `k`. */
  function Triad(k: string): (r: set<LayerId>)
    ensures forall l :: l in r <==> OfKey(l, k)
  {
    var r := {Geo(Source, k), Geo(Fill, k), Geo(Outline, k), Geo(Label, k)};
    forall l | OfKey(l, k)
      ensures l in r
    {
      assert l.part.Source? || l.part.Fill? || l.part.Outline? || l.part.Label?;
    }
    r
  }

  /** Some geofence in the list has this key. */
  predicate Listed(gs: Geofences.Geofences, k: string) {
    exists i :: 0 <= i < |gs| && Key(gs[i]) == k
  }

  /** Some geofence with this key is drawable. */
  predicate DrawnFor(gs: Geofences.Geofences, k: string) {
    exists i :: 0 <= i < |gs| && Drawable(gs[i]) && Key(gs[i]) == k
  }

  /** `geo.latitude && geo.longitude && geo.radius`; a zero coordinate counts as missing. */
  predicate Drawable(g: Record) {
    Truthy(Get(g, "latitude")) && Truthy(Get(g, "longitude")) && Truthy(Get(g, "radius"))
  }

  /** The removal pass: the pieces of every geofence in the current list go. */
  function RemoveAll(reg: Registry, gs: Geofences.Geofences): (r: Registry)
    ensures forall l :: l in r <==> l in reg && !(l.Geo? && Listed(gs, l.key))
  {
    if |gs| == 0 then reg
    else
      var rest := RemoveAll(reg - Triad(Key(gs[0])), gs[1..]);
      assert forall k :: Listed(gs, k) <==> k == Key(gs[0]) || Listed(gs[1..], k) by {
        forall k | Listed(gs, k) && k != Key(gs[0])
          ensures Listed(gs[1..], k)
        {
          var i :| 0 <= i < |gs| && Key(gs[i]) == k;
          assert gs[1..][i - 1] == gs[i];
        }
        forall k | Listed(gs[1..], k)
          ensures Listed(gs, k)
        {
          var i :| 0 <= i < |gs[1..]| && Key(gs[1..][i]) == k;
          assert gs[i + 1] == gs[1..][i];
        }
      }
      rest
  }

  /** The drawing pass. Adding a source whose id already exists throws, which
      abandons the geofences after it. */
  function AddAll(reg: Registry, gs: Geofences.Geofences): (r: Registry)
    ensures reg <= r
    ensures forall l :: l in r && l !in reg ==> l.Geo? && DrawnFor(gs, l.key)
    decreases |gs|
  {
    if |gs| == 0 then reg
    else if !Drawable(gs[0]) then
      var r := AddAll(reg, gs[1..]);
      assert forall k :: DrawnFor(gs[1..], k) ==> DrawnFor(gs, k) by {
        forall k | DrawnFor(gs[1..], k)
          ensures DrawnFor(gs, k)
        {
          var i :| 0 <= i < |gs[1..]| && Drawable(gs[1..][i]) && Key(gs[1..][i]) == k;
          assert gs[i + 1] == gs[1..][i];
        }
      }
      r
    else if Geo(Source, Key(gs[0])) in reg then reg
    else
      var r := AddAll(reg + Triad(Key(gs[0])), gs[1..]);
      assert forall k :: DrawnFor(gs[1..], k) ==> DrawnFor(gs, k) by {
        forall k | DrawnFor(gs[1..], k)
          ensures DrawnFor(gs, k)
        {
          var i :| 0 <= i < |gs[1..]| && Drawable(gs[1..][i]) && Key(gs[1..][i]) == k;
          assert gs[i + 1] == gs[1..][i];
        }
      }
      r
  }

  /** The geofence effect: once the map is ready, remove the pieces of every
      listed geofence, then redraw the drawable ones when display is on. */
  function Reconcile(reg: Registry, gs: Geofences.Geofences, show: bool, mapReady: bool): (r: Registry)
    ensures !mapReady ==> r == reg
    ensures mapReady ==> forall l: LayerId :: !(l.Geo? && Listed(gs, l.key)) ==> (l in r <==> l in reg)
    ensures mapReady ==> forall l :: l in r && l.Geo? && Listed(gs, l.key) ==> show && DrawnFor(gs, l.key)
  {
    if !mapReady then reg
    else if show && |gs| > 0 then AddAll(RemoveAll(reg, gs), gs)
    else RemoveAll(reg, gs)
  }

  /** No two geofences share a key. */
  predicate DistinctKeys(gs: Geofences.Geofences) {
    forall i, j :: 0 <= i < j < |gs| ==> Key(gs[i]) != Key(gs[j])
  }

  /** With distinct keys and none of them on the map, the drawing pass draws
      every drawable geofence. */
  lemma {:induction false} AddAllDrawsAll(reg: Registry, gs: Geofences.Geofences)
    requires DistinctKeys(gs)
    requires forall l :: l in reg && l.Geo? ==> !Listed(gs, l.key)
    ensures forall i :: 0 <= i < |gs| && Drawable(gs[i]) ==> Triad(Key(gs[i])) <= AddAll(reg, gs)
    decreases |gs|
  {
    if |gs| > 0 {
      var next := if Drawable(gs[0]) then reg + Triad(Key(gs[0])) else reg;
      assert Geo(Source, Key(gs[0])) !in reg by {
        assert Listed(gs, Key(gs[0]));
      }
      forall l | l in next && l.Geo?
        ensures !Listed(gs[1..], l.key)
      {
      }
      assert DistinctKeys(gs[1..]) by {
        forall i, j | 0 <= i < j < |gs[1..]|
          ensures Key(gs[1..][i]) != Key(gs[1..][j])
        {
          assert gs[1..][i] == gs[i + 1] && gs[1..][j] == gs[j + 1];
        }
      }
      AddAllDrawsAll(next, gs[1..]);
      forall i | 0 <= i < |gs| && Drawable(gs[i])
        ensures Triad(Key(gs[i])) <= AddAll(reg, gs)
      {
        if i > 0 {
          assert gs[1..][i - 1] == gs[i];
        }
      }
    }
  }

  /** With distinct keys, after the reconcile every listed geofence has all
      four pieces on the map exactly when display is on and it is drawable,
      and none of them otherwise. */
  lemma ReconcileDraws(reg: Registry, gs: Geofences.Geofences, show: bool, i: int)
    requires DistinctKeys(gs) && 0 <= i < |gs|
    ensures var r := Reconcile(reg, gs, show, true);
      if show && Drawable(gs[i]) then Triad(Key(gs[i])) <= r else Triad(Key(gs[i])) !! r
  {
    var r := Reconcile(reg, gs, show, true);
    assert Listed(gs, Key(gs[i]));
    if show && Drawable(gs[i]) {
      AddAllDrawsAll(RemoveAll(reg, gs), gs);
    }
  }

  /** Rerunning the reconcile on the same list and flag changes nothing, so
      it does not matter how often the effect fires. */
  lemma ReconcileIdempotent(reg: Registry, gs: Geofences.Geofences, show: bool, mapReady: bool)
    ensures Reconcile(Reconcile(reg, gs, show, mapReady), gs, show, mapReady) == Reconcile(reg, gs, show, mapReady)
  {
    if mapReady {
      var once := Reconcile(reg, gs, show, mapReady);
      assert RemoveAll(once, gs) == RemoveAll(reg, gs);
    }
  }

  /** The reconcile only visits the current list, so the pieces drawn for a
      geofence survive its deletion. */
  lemma DeletedGeofenceStaysDrawn(reg: Registry, gs: Geofences.Geofences, id: Value, show: bool, show': bool, g: Record)
    requires g in gs && Geofences.HasId(g, id)
    requires Triad(Key(g)) <= Reconcile(reg, gs, show, true)
    requires !Listed(Geofences.Delete(gs, id), Key(g))
    ensures Triad(Key(g)) <= Reconcile(Reconcile(reg, gs, show, true), Geofences.Delete(gs, id), show', true)
  {
  }

  // ---------------------------------------------------------------------------
  // Route overlay

  /** The source and three layers of the route overlay. */
  const RouteIds: set<LayerId> := {RouteSource, RouteLine, RoutePoints, RouteArrows}

  datatype Point = Point(lng: Value, lat: Value)

  /** The overlay state: what is on the map, whether the route is shown, and
      the path its source holds. */
  datatype Overlay = Overlay(layers: Registry, shown: bool, path: seq<Point>)

  /** `loc.longitude && loc.latitude` */
  predicate Plottable(h: Record) {
    Truthy(Get(h, "longitude")) && Truthy(Get(h, "latitude"))
  }

  function PointOf(h: Record): Point {
    Point(Get(h, "longitude"), Get(h, "latitude"))
  }

  /** The line drawn: the plottable history entries, whose list is most
      recent first, turned round so that the path runs oldest first. */
  function RoutePath(history: seq<Record>): (p: seq<Point>)
    ensures var kept := Filter(history, Plottable);
      |p| == |kept| && forall i :: 0 <= i < |p| ==> p[i] == PointOf(kept[|kept| - 1 - i])
  {
    var kept := Filter(history, Plottable);
    var points := seq(|kept|, i requires 0 <= i < |kept| => PointOf(kept[i]));
    var p := Reverse(points);
    assert forall i :: 0 <= i < |p| ==> p[i] == points[|kept| - 1 - i];
    p
  }

  /** The route starts at the oldest plottable entry and ends at the most recent one. */
  lemma RoutePathEnds(recent: Record, middle: seq<Record>, oldest: Record)
    requires Plottable(recent) && Plottable(oldest)
    ensures var p := RoutePath([recent] + middle + [oldest]);
      |p| >= 2 && p[0] == PointOf(oldest) && p[|p| - 1] == PointOf(recent)
  {
    var h := [recent] + middle + [oldest];
    FilterAppend([recent] + middle, [oldest], Plottable);
    FilterCons(recent, middle, Plottable);
    FilterCons(oldest, [], Plottable);
    assert [oldest] == [oldest] + [];
  }

  /** `toggleUserRoute`: remove the route when shown; otherwise draw it when
      at least two history entries are plottable. The arrow image is added
      once and never removed. */
  function ToggleRoute(o: Overlay, history: seq<Record>, mapReady: bool): (r: Overlay)
    ensures !mapReady ==> r == o
    ensures mapReady && o.shown ==> !r.shown && r.layers == o.layers - RouteIds && r.path == []
    ensures mapReady && !o.shown ==> (r.shown <==> |Filter(history, Plottable)| >= 2)
    ensures mapReady && !o.shown && r.shown ==>
      r.layers == o.layers + RouteIds + {ArrowImage} && r.path == RoutePath(history)
    ensures mapReady && !o.shown && !r.shown ==> r == o
  {
    if !mapReady then o
    else if o.shown then Overlay(o.layers - RouteIds, false, [])
    else if |history| < 2 then o
    else
      var path := RoutePath(history);
      if |path| < 2 then o
      else Overlay((o.layers - RouteIds) + RouteIds + {ArrowImage}, true, path)
  }

  /** The "Clear Route" button: the route pieces go and the flag is cleared,
      whether or not the map has loaded. */
  function ClearRoute(o: Overlay): (r: Overlay)
    ensures !r.shown && r.path == [] && RouteIds !! r.layers
    ensures forall l :: l !in RouteIds ==> (l in r.layers <==> l in o.layers)
  {
    Overlay(o.layers - RouteIds, false, [])
  }

  /** On a loaded map, clearing a shown route is the toggle's removal. */
  lemma ClearRouteIsToggleOff(o: Overlay, history: seq<Record>)
    requires o.shown
    ensures ClearRoute(o) == ToggleRoute(o, history, true)
  {
  }

  /** The route layers are on the map exactly when the route is shown. */
  predicate RouteConsistent(o: Overlay) {
    if o.shown then RouteIds <= o.layers else RouteIds !! o.layers
  }

  /** The toggle keeps the route layers in step with the flag. */
  lemma ToggleRouteConsistent(o: Overlay, history: seq<Record>, mapReady: bool)
    requires RouteConsistent(o)
    ensures RouteConsistent(ToggleRoute(o, history, mapReady))
  {
  }

  /** Showing and then hiding the route leaves the map as it was, apart from
      the arrow image. */
  lemma ToggleRouteTwice(o: Overlay, history: seq<Record>)
    requires RouteConsistent(o) && !o.shown
    requires ToggleRoute(o, history, true).shown
    ensures ToggleRoute(ToggleRoute(o, history, true), history, true)
      == Overlay(o.layers + {ArrowImage}, false, [])
  {
  }

  /** What survives every writer of the route overlay, a style change
      included: the four route ids are on the map all together or not at
      all, and never while the route is hidden. */
  predicate RouteWhole(o: Overlay) {
    (RouteIds <= o.layers || RouteIds !! o.layers) && (!o.shown ==> RouteIds !! o.layers)
  }

  /** The toggle keeps the route whole, even from a shown route whose layers
      a style change has discarded. */
  lemma ToggleRouteKeepsWhole(o: Overlay, history: seq<Record>, mapReady: bool)
    requires RouteWhole(o)
    ensures RouteWhole(ToggleRoute(o, history, mapReady))
  {
  }

  /** The geofence reconcile never touches the route overlay. */
  lemma ReconcileKeepsRoute(o: Overlay, gs: Geofences.Geofences, show: bool, mapReady: bool)
    ensures RouteConsistent(o) ==> RouteConsistent(o.(layers := Reconcile(o.layers, gs, show, mapReady)))
    ensures RouteWhole(o) ==> RouteWhole(o.(layers := Reconcile(o.layers, gs, show, mapReady)))
  {
  }
}

=== FILE: markers.dfy ===
/** The per-user marker registry (`markersRef`): at most one marker per user
    key, repositioned and patched in place rather than recreated. Only the
    state a marker shows is modelled: position, status ring and avatar. */
module Markers {
  import opened JsValue

  /** The avatar image a marker shows: a picture URL, or the generated
      initials avatar built from the user's name. */
  datatype Photo = Picture(url: string) | Generated

  datatype Marker = Marker(lng: Value, lat: Value, active: bool, photo: Photo)

  type Registry = map<string, Marker>

  /** `v.startsWith('http')` on a truthy string. */
  predicate IsHttpUrl(v: Value) {
    v.Str? && StartsWithHttp(v.s)
  }

  /** `createMarkerElement`'s status rule: active unless `isOnline` or
      `isActive` is `false` or `status` is 'inactive'. */
  predicate CreatedActive(u: Record) {
    !StrictEq(Get(u, "isOnline"), Bool(false))
    && !StrictEq(Get(u, "isActive"), Bool(false))
    && !StrictEq(Get(u, "status"), Str("inactive"))
  }

  /** Whether a marker shows the picture alias `v`: its URL exactly when `v`
      is an http(s) string. */
  predicate Shows(p: Photo, v: Value) {
    (p.Picture? <==> IsHttpUrl(v)) && (p.Picture? ==> p.url == v.s)
  }

  /** `createMarkerElement`'s avatar: the first truthy of `profilePicture`,
      `profilePhoto`, `avatar`, `image` and `photo` when it is an http(s)
      URL, otherwise the generated avatar. */
  function CreatedPhoto(u: Record): (p: Photo)
    ensures p.Picture? ==> StartsWithHttp(p.url)
    ensures Truthy(Get(u, "profilePicture")) ==> Shows(p, Get(u, "profilePicture"))
    ensures !Truthy(Get(u, "profilePicture")) && Truthy(Get(u, "profilePhoto")) ==> Shows(p, Get(u, "profilePhoto"))
    ensures (!Truthy(Get(u, "profilePicture")) && !Truthy(Get(u, "profilePhoto")) && Truthy(Get(u, "avatar")))
      ==> Shows(p, Get(u, "avatar"))
    ensures (!Truthy(Get(u, "profilePicture")) && !Truthy(Get(u, "profilePhoto")) && !Truthy(Get(u, "avatar"))
      && Truthy(Get(u, "image"))) ==> Shows(p, Get(u, "image"))
    ensures (!Truthy(Get(u, "profilePicture")) && !Truthy(Get(u, "profilePhoto")) && !Truthy(Get(u, "avatar"))
      && !Truthy(Get(u, "image"))) ==> Shows(p, Get(u, "photo"))
    ensures (!Truthy(Get(u, "profilePicture")) && !Truthy(Get(u, "profilePhoto")) && !Truthy(Get(u, "avatar"))
      && !Truthy(Get(u, "image")) && !Truthy(Get(u, "photo"))) ==> p == Generated
  {
    var img := Or(Get(u, "profilePicture"), Or(Get(u, "profilePhoto"), Or(Get(u, "avatar"),
      Or(Get(u, "image"), Get(u, "photo")))));
    if IsHttpUrl(img) then Picture(img.s) else Generated
  }

  /** `updateUserMarker`'s marker half, given the normalised user, its
      coordinates and whether the map has loaded. An existing marker is moved
      and patched: its ring follows `isOnline !== false` only, and its avatar
      changes only to a new http(s) `profilePicture`. */
  function Sync(markers: Registry, key: string, user: Record, lng: Value, lat: Value, mapReady: bool): (r: Registry)
    ensures !mapReady ==> r == markers
    ensures mapReady ==> r.Keys == markers.Keys + {key} && r[key].lng == lng && r[key].lat == lat
    ensures forall k :: k in markers && k != key ==> r[k] == markers[k]
    ensures mapReady && key in markers ==>
      && (r[key].active <==> Get(user, "isOnline") != Bool(false))
      && (IsHttpUrl(Get(user, "profilePicture")) ==> r[key].photo == Picture(Get(user, "profilePicture").s))
      && (!IsHttpUrl(Get(user, "profilePicture")) ==> r[key].photo == markers[key].photo)
    ensures mapReady && key !in markers ==> r[key].active == CreatedActive(user) && r[key].photo == CreatedPhoto(user)
  {
    if !mapReady then markers
    else if key in markers then
      var pic := Get(user, "profilePicture");
      var photo := if IsHttpUrl(pic) then Picture(pic.s) else markers[key].photo;
      markers[key := Marker(lng, lat, !StrictEq(Get(user, "isOnline"), Bool(false)), photo)]
    else
      markers[key := Marker(lng, lat, CreatedActive(user), CreatedPhoto(user))]
  }

  /** Syncing the same user twice leaves the registry as syncing once. */
  lemma SyncIdempotent(markers: Registry, key: string, user: Record, lng: Value, lat: Value, mapReady: bool)
    requires mapReady ==> key in markers
    ensures Sync(Sync(markers, key, user, lng, lat, mapReady), key, user, lng, lat, mapReady)
         == Sync(markers, key, user, lng, lat, mapReady)
  {
  }

  /** The ring patch of `user:online`, `user:offline` and
      `user:location-stopped`: only an existing marker changes, and only its ring. */
  function SetActive(markers: Registry, key: string, active: bool): (r: Registry)
    ensures r.Keys == markers.Keys
    ensures key in markers ==> r[key] == markers[key].(active := active)
    ensures forall k :: k in markers && k != key ==> r[k] == markers[k]
  {
    if key in markers then markers[key := markers[key].(active := active)] else markers
  }

  /** `removeUserMarker`'s registry half. */
  function Remove(markers: Registry, userId: Value): (r: Registry)
    ensures r.Keys == markers.Keys - {ToStr(userId)}
    ensures forall k :: k in r ==> r[k] == markers[k]
  {
    markers - {ToStr(userId)}
  }

  /** A marker created for a user whose record says `status: 'inactive'` but
      `isOnline: true` starts grey and turns green at its next update, since
      the in-place patch consults `isOnline` alone. */
  lemma StatusRulesDiffer(markers: Registry, key: string, user: Record, lng: Value, lat: Value)
    requires key !in markers
    requires Get(user, "isOnline") == Bool(true) && Get(user, "status") == Str("inactive")
    ensures !Sync(markers, key, user, lng, lat, true)[key].active
    ensures Sync(Sync(markers, key, user, lng, lat, true), key, user, lng, lat, true)[key].active
  {
  }
}

=== FILE: options.dfy ===
/** The optional value used wherever the dashboard may have nothing to report. */
module Options {

  datatype Option<+T> = None | Some(value: T)
}

=== FILE: roster.dfy ===
/** The user roster (`users` state) and every reducer that writes it:
    `updateUserMarker`'s state half, the presence patches of `user:online`,
    `user:offline`, `alert:low-battery` and `user:location-stopped`, the
    `admin:all-locations` batch and `removeUserMarker`. */
module Roster {
  import opened JsValue

  /** User records keyed by the string form of their id, as a JavaScript object keys them. */
  type Users = map<string, Record>

  /** `prev[key]` as spread into a new record: an absent user contributes no fields. */
  function Prior(users: Users, key: string): Record {
    if key in users then users[key] else map[]
  }

  /** `{...prev, [key]: {...prev[key], ...fields}}`: the shallow merge every roster write uses. */
  function Patch(users: Users, key: string, fields: Record): (r: Users)
    ensures r.Keys == users.Keys + {key}
    ensures forall k :: k in users && k != key ==> r[k] == users[k]
    ensures r[key].Keys == Prior(users, key).Keys + fields.Keys
    ensures forall f :: f in fields ==> Get(r[key], f) == fields[f]
    ensures forall f :: f !in fields ==> Get(r[key], f) == Get(Prior(users, key), f)
  {
    users[key := Spread(Prior(users, key), fields)]
  }

  /** Writing the same fields twice is writing them once. */
  lemma PatchTwice(users: Users, key: string, fields: Record)
    ensures Patch(Patch(users, key, fields), key, fields) == Patch(users, key, fields)
  {
    var once := Patch(users, key, fields);
    assert Prior(once, key) == Spread(Prior(users, key), fields);
    assert Spread(Prior(once, key), fields) == Prior(once, key);
  }

  // ---------------------------------------------------------------------------
  // updateUserMarker (state half)

  /** Where an incoming user record puts the user, if anywhere. `Throws` is the
      destructuring `[lng, lat] = location.coordinates` of a truthy value that
      is not iterable, which raises a TypeError before any state is written. */
  datatype Coords = Located(lng: Value, lat: Value) | Unlocated | Throws

  /** Element `i` of an array destructuring: `undefined` past the end. */
  function ElementAt(xs: seq<Value>, i: nat): Value {
    if i < |xs| then xs[i] else Undefined
  }

  /** Element `i` of destructuring a string, which iterates its characters. */
  function CharAt(cs: string, i: nat): Value {
    if i < |cs| then Str([cs[i]]) else Undefined
  }

  /** The two coordinate formats: top-level `longitude`/`latitude` (both not
      `undefined`, `null` counts as present), else legacy `location.coordinates = [lng, lat]`. */
  function ReadCoords(d: Record): (c: Coords)
    ensures (Get(d, "longitude") != Undefined && Get(d, "latitude") != Undefined) ==>
      c == Located(Get(d, "longitude"), Get(d, "latitude"))
    ensures (Get(d, "longitude") == Undefined || Get(d, "latitude") == Undefined) ==>
      (c.Unlocated? <==> !Truthy(Member(Get(d, "location"), "coordinates")))
    ensures c.Throws? ==> Member(Get(d, "location"), "coordinates").Num?
                          || Member(Get(d, "location"), "coordinates").Bool?
                          || Member(Get(d, "location"), "coordinates").Obj?
  {
    if Get(d, "longitude") != Undefined && Get(d, "latitude") != Undefined then
      Located(Get(d, "longitude"), Get(d, "latitude"))
    else
      var c := Member(Get(d, "location"), "coordinates");
      if !Truthy(c) then Unlocated
      else
        match c
        case Arr(xs) => Located(ElementAt(xs, 0), ElementAt(xs, 1))
        case Str(cs) => Located(CharAt(cs, 0), CharAt(cs, 1))
        case _ => Throws
  }

  /** `userData.userId || userData._id` */
  function UserId(d: Record): Value {
    Or(Get(d, "userId"), Get(d, "_id"))
  }

  /** The roster key of an incoming user record. */
  function Key(d: Record): string {
    ToStr(UserId(d))
  }

  /** The fields `updateUserMarker` always writes, whatever the event carries. */
  const Overwritten: set<string> :=
    {"userId", "longitude", "latitude", "isOnline", "profilePicture", "phone", "lastUpdated"}

  /** The normalised fields of `normalizedUser`. `now` is the
      `new Date().toISOString()` fallback for `lastUpdated`. */
  function NormalFields(d: Record, lng: Value, lat: Value, now: string): Record {
    map[
      "userId" := UserId(d),
      "longitude" := lng,
      "latitude" := lat,
      "isOnline" := Coalesce(Get(d, "isOnline"), Coalesce(Get(d, "isActive"), Bool(true))),
      "profilePicture" := Or(Get(d, "profilePicture"), Or(Get(d, "profilePhoto"), Get(d, "avatar"))),
      "phone" := Or(Get(d, "phone"), Get(d, "phoneNumber")),
      "lastUpdated" := Or(Get(d, "timestamp"), Str(now))
    ]
  }

  /** `normalizedUser`: the event's own fields with the normalised ones on top. */
  function Normalized(d: Record, lng: Value, lat: Value, now: string): Record {
    Spread(d, NormalFields(d, lng, lat, now))
  }

  /** `user:location` (and every other caller of `updateUserMarker`): a record
      without usable coordinates is dropped whole, even when it carries other
      fields; otherwise exactly that user's entry is written. */
  function LocationUpdate(users: Users, d: Record, now: string): (r: Users)
    ensures !ReadCoords(d).Located? ==> r == users
    ensures ReadCoords(d).Located? ==> r.Keys == users.Keys + {Key(d)}
    ensures forall k :: k in users && k != Key(d) ==> r[k] == users[k]
  {
    match ReadCoords(d)
    case Located(lng, lat) => Patch(users, Key(d), Normalized(d, lng, lat, now))
    case _ => users
  }

  /** What normalisation does to one event record. */
  lemma NormalizedShape(d: Record, lng: Value, lat: Value, now: string)
    ensures
      var n := Normalized(d, lng, lat, now);
      && n.Keys == d.Keys + Overwritten
      && Get(n, "userId") == UserId(d)
      && Get(n, "longitude") == lng
      && Get(n, "latitude") == lat
      && (!Nullish(Get(d, "isOnline")) ==> Get(n, "isOnline") == Get(d, "isOnline"))
      && (Nullish(Get(d, "isOnline")) && !Nullish(Get(d, "isActive")) ==> Get(n, "isOnline") == Get(d, "isActive"))
      && (Nullish(Get(d, "isOnline")) && Nullish(Get(d, "isActive")) ==> Get(n, "isOnline") == Bool(true))
      && (Truthy(Get(d, "profilePicture")) ==> Get(n, "profilePicture") == Get(d, "profilePicture"))
      && (!Truthy(Get(d, "profilePicture")) && Truthy(Get(d, "profilePhoto")) ==> Get(n, "profilePicture") == Get(d, "profilePhoto"))
      && (!Truthy(Get(d, "profilePicture")) && !Truthy(Get(d, "profilePhoto")) ==> Get(n, "profilePicture") == Get(d, "avatar"))
      && (Truthy(Get(d, "phone")) ==> Get(n, "phone") == Get(d, "phone"))
      && (!Truthy(Get(d, "phone")) ==> Get(n, "phone") == Get(d, "phoneNumber"))
      && (Truthy(Get(d, "timestamp")) ==> Get(n, "lastUpdated") == Get(d, "timestamp"))
      && (!Truthy(Get(d, "timestamp")) ==> Get(n, "lastUpdated") == Str(now))
      && (forall f :: f !in Overwritten ==> Get(n, f) == Get(d, f))
  {
    var fixed := NormalFields(d, lng, lat, now);
    NormalFieldsKeys(d, lng, lat, now);
    var isOnline := [Get(d, "isOnline"), Get(d, "isActive"), Bool(true)];
    assert !Nullish(isOnline[0]) ==> fixed["isOnline"] == isOnline[0];
    assert Nullish(isOnline[0]) && !Nullish(isOnline[1]) ==> fixed["isOnline"] == isOnline[1];
    assert Nullish(isOnline[0]) && Nullish(isOnline[1]) ==> fixed["isOnline"] == isOnline[2];
    var picture := [Get(d, "profilePicture"), Get(d, "profilePhoto"), Get(d, "avatar")];
    assert Truthy(picture[0]) ==> fixed["profilePicture"] == picture[0];
  }

  lemma NormalFieldsKeys(d: Record, lng: Value, lat: Value, now: string)
    ensures NormalFields(d, lng, lat, now).Keys == Overwritten
  {
  }

  /** The record a located event leaves: the seven normalised keys always
      overwritten, every other key of the event copied, every other earlier key kept. */
  lemma LocationUpdateRecord(users: Users, d: Record, now: string)
    requires ReadCoords(d).Located?
    ensures
      var rec, n, prev := LocationUpdate(users, d, now)[Key(d)], Normalized(d, ReadCoords(d).lng, ReadCoords(d).lat, now), Prior(users, Key(d));
      && rec.Keys == prev.Keys + d.Keys + Overwritten
      && (forall f :: f in Overwritten ==> Get(rec, f) == Get(n, f))
      && (forall f :: f !in Overwritten && f in d ==> Get(rec, f) == d[f])
      && (forall f :: f !in Overwritten && f !in d ==> Get(rec, f) == Get(prev, f))
  {
    var c := ReadCoords(d);
    NormalizedShape(d, c.lng, c.lat, now);
  }

  /** Delivering the same location event twice changes nothing the first delivery did not. */
  lemma LocationUpdateIdempotent(users: Users, d: Record, now: string)
    ensures LocationUpdate(LocationUpdate(users, d, now), d, now) == LocationUpdate(users, d, now)
  {
    match ReadCoords(d)
    case Located(lng, lat) => PatchTwice(users, Key(d), Normalized(d, lng, lat, now));
    case _ =>
  }

  /** A sequence of single `user:location` events, applied in arrival order. */
  function LocationEvents(users: Users, ds: seq<Record>, now: string): Users
    decreases |ds|
  {
    if |ds| == 0 then users else LocationEvents(LocationUpdate(users, ds[0], now), ds[1..], now)
  }

  /** Reference definition of one user's record after a run of events: the
      shallow merge, in arrival order, of every located event addressed to that user. */
  ghost function MergedFor(base: Record, ds: seq<Record>, key: string, now: string): Record
    decreases |ds|
  {
    if |ds| == 0 then base
    else
      var d := ds[0];
      var c := ReadCoords(d);
      var next := if c.Located? && Key(d) == key then Spread(base, Normalized(d, c.lng, c.lat, now)) else base;
      MergedFor(next, ds[1..], key, now)
  }

  /** Reference definition of who is on the roster after a run of events. */
  ghost predicate Listed(users: Users, ds: seq<Record>, key: string, now: string) {
    key in users || exists i :: 0 <= i < |ds| && ReadCoords(ds[i]).Located? && Key(ds[i]) == key
  }

  /** One event's effect on one user's record. */
  lemma LocationUpdateStep(users: Users, d: Record, now: string, key: string)
    ensures key in LocationUpdate(users, d, now) <==> key in users || (ReadCoords(d).Located? && Key(d) == key)
    ensures Prior(LocationUpdate(users, d, now), key) ==
      if ReadCoords(d).Located? && Key(d) == key then Spread(Prior(users, key), Normalized(d, ReadCoords(d).lng, ReadCoords(d).lat, now))
      else Prior(users, key)
  {
  }

  /** Whatever the interleaving of users, each user's final record is the
      shallow merge of that user's located events over the initial record. */
  lemma {:induction false} LocationEventsMerge(users: Users, ds: seq<Record>, now: string, key: string)
    ensures Prior(LocationEvents(users, ds, now), key) == MergedFor(Prior(users, key), ds, key, now)
    decreases |ds|
  {
    if |ds| > 0 {
      var next := LocationUpdate(users, ds[0], now);
      assert LocationEvents(users, ds, now) == LocationEvents(next, ds[1..], now);
      MergedForStep(users, ds, now, key);
      LocationEventsMerge(next, ds[1..], now, key);
    }
  }

  lemma MergedForStep(users: Users, ds: seq<Record>, now: string, key: string)
    requires |ds| > 0
    ensures MergedFor(Prior(users, key), ds, key, now) == MergedFor(Prior(LocationUpdate(users, ds[0], now), key), ds[1..], key, now)
  {
    LocationUpdateStep(users, ds[0], now, key);
  }

  /** A user is listed after a run of events exactly when listed before or
      named by some located event of the run. */
  lemma {:induction false} LocationEventsListing(users: Users, ds: seq<Record>, now: string, key: string)
    ensures key in LocationEvents(users, ds, now) <==> Listed(users, ds, key, now)
    decreases |ds|
  {
    if |ds| > 0 {
      var next := LocationUpdate(users, ds[0], now);
      LocationUpdateStep(users, ds[0], now, key);
      LocationEventsListing(next, ds[1..], now, key);
      if Listed(next, ds[1..], key, now) && key !in next {
        var i :| 0 <= i < |ds[1..]| && ReadCoords(ds[1..][i]).Located? && Key(ds[1..][i]) == key;
        assert ds[i + 1] == ds[1..][i];
      }
      if Listed(users, ds, key, now) && key !in next {
        var i :| 0 <= i < |ds| && ReadCoords(ds[i]).Located? && Key(ds[i]) == key;
        assert i != 0;
        assert ds[1..][i - 1] == ds[i];
      }
    }
  }

  /** A second event for a newly listed user that carries no coordinates
      (say, only a battery level) is not merged: its fields are lost. */
  lemma CoordinateFreeEventIsDropped(users: Users, first: Record, second: Record, now: string, field: string)
    requires ReadCoords(first).Located? && Key(first) !in users
    requires Get(second, "longitude") == Undefined && Get(second, "location") == Undefined
    requires Key(second) == Key(first)
    requires field in second && field !in first && field !in Overwritten
    ensures Key(first) in LocationEvents(users, [first, second], now)
    ensures Get(LocationEvents(users, [first, second], now)[Key(first)], field) == Undefined
  {
    var u1 := LocationUpdate(users, first, now);
    LocationUpdateRecord(users, first, now);
    assert LocationUpdate(u1, second, now) == u1;
    LocationEventsPair(users, first, second, now);
  }

  lemma LocationEventsPair(users: Users, first: Record, second: Record, now: string)
    ensures LocationEvents(users, [first, second], now) == LocationUpdate(LocationUpdate(users, first, now), second, now)
  {
    var u1 := LocationUpdate(users, first, now);
    assert [first, second][1..] == [second];
    assert [second][1..] == [];
    assert LocationEvents(users, [first, second], now) == LocationEvents(u1, [second], now);
    assert LocationEvents(u1, [second], now) == LocationEvents(LocationUpdate(u1, second, now), [], now);
  }

  // ---------------------------------------------------------------------------
  // admin:all-locations

  /** The `admin:all-locations` batch: `updateUserMarker` on each array element
      in order. A `null`/`undefined` element, or one whose coordinates throw,
      ends the `forEach` and the rest of the batch is never applied. */
  function AllLocations(users: Users, xs: seq<Value>, now: string): (r: Users)
    ensures users.Keys <= r.Keys
    ensures forall k :: k in r && k !in users ==> exists i :: 0 <= i < |xs| && Key(AsRecord(xs[i])) == k
    decreases |xs|
  {
    if |xs| == 0 then users
    else if Nullish(xs[0]) || ReadCoords(AsRecord(xs[0])).Throws? then users
    else
      var mid := LocationUpdate(users, AsRecord(xs[0]), now);
      var r := AllLocations(mid, xs[1..], now);
      forall k | k in r && k !in users
        ensures exists i :: 0 <= i < |xs| && Key(AsRecord(xs[i])) == k
      {
        if k in mid {
          assert Key(AsRecord(xs[0])) == k;
        } else {
          var i :| 0 <= i < |xs[1..]| && Key(AsRecord(xs[1..][i])) == k;
          assert xs[1..][i] == xs[i + 1];
        }
      }
      r
  }

  /** Without a throwing element the batch is exactly the same records as single events. */
  lemma {:induction false} AllLocationsIsEventSequence(users: Users, xs: seq<Value>, now: string)
    requires forall i :: 0 <= i < |xs| ==> !Nullish(xs[i]) && !ReadCoords(AsRecord(xs[i])).Throws?
    ensures AllLocations(users, xs, now) == LocationEvents(users, seq(|xs|, i requires 0 <= i < |xs| => AsRecord(xs[i])), now)
    decreases |xs|
  {
    if |xs| > 0 {
      var ds := seq(|xs|, i requires 0 <= i < |xs| => AsRecord(xs[i]));
      AllLocationsIsEventSequence(LocationUpdate(users, AsRecord(xs[0]), now), xs[1..], now);
      assert ds[1..] == seq(|xs[1..]|, i requires 0 <= i < |xs[1..]| => AsRecord(xs[1..][i]));
    }
  }

  // ---------------------------------------------------------------------------
  // Presence patches

  /** `user:online` / `user:offline`: the whole payload merged onto the user,
      then `isOnline` forced. No coordinates are needed, so this can list an unlocated user. */
  function SetPresence(users: Users, d: Record, online: bool): (r: Users)
    ensures r.Keys == users.Keys + {ToStr(Get(d, "userId"))}
    ensures forall k :: k in users && k != ToStr(Get(d, "userId")) ==> r[k] == users[k]
    ensures var rec := r[ToStr(Get(d, "userId"))];
      && Get(rec, "isOnline") == Bool(online)
      && (forall f :: f in d && f != "isOnline" ==> Get(rec, f) == d[f])
      && (forall f :: f !in d && f != "isOnline" ==> Get(rec, f) == Get(Prior(users, ToStr(Get(d, "userId"))), f))
  {
    Patch(users, ToStr(Get(d, "userId")), Spread(d, map["isOnline" := Bool(online)]))
  }

  /** `alertData.user?.id || alertData.userId` */
  function LowBatteryUserId(d: Record): Value {
    Or(Member(Get(d, "user"), "id"), Get(d, "userId"))
  }

  /** The coordinates `...(alertData.location && {latitude, longitude})` contributes. */
  function LowBatteryPosition(loc: Value): Record {
    if Truthy(loc) then map["latitude" := Member(loc, "latitude"), "longitude" := Member(loc, "longitude")] else map[]
  }

  /** `alert:low-battery`'s roster half: battery and `lowBattery` patched onto
      the user it names; an event naming no user touches nobody. */
  function LowBatteryPatch(users: Users, d: Record): (r: Users)
    ensures !Truthy(LowBatteryUserId(d)) ==> r == users
    ensures Truthy(LowBatteryUserId(d)) ==> r.Keys == users.Keys + {ToStr(LowBatteryUserId(d))}
    ensures forall k :: k in users && k != ToStr(LowBatteryUserId(d)) ==> r[k] == users[k]
    ensures Truthy(LowBatteryUserId(d)) ==>
      && Get(Prior(r, ToStr(LowBatteryUserId(d))), "battery") == Get(d, "battery")
      && Get(Prior(r, ToStr(LowBatteryUserId(d))), "lowBattery") == Bool(true)
  {
    var uid := LowBatteryUserId(d);
    if !Truthy(uid) then users
    else Patch(users, ToStr(uid), LowBatteryFields(d))
  }

  /** The fields `alert:low-battery` writes onto its user. */
  function LowBatteryFields(d: Record): Record {
    Spread(map["battery" := Get(d, "battery"), "lowBattery" := Bool(true)], LowBatteryPosition(Get(d, "location")))
  }

  lemma LowBatteryFieldsShape(d: Record)
    ensures var fields, loc := LowBatteryFields(d), Get(d, "location");
      && fields.Keys == {"battery", "lowBattery"} + LowBatteryPosition(loc).Keys
      && (Truthy(loc) ==> Get(fields, "latitude") == Member(loc, "latitude") && Get(fields, "longitude") == Member(loc, "longitude"))
  {
  }

  /** The low-battery patch moves the user only when the payload's `location`
      is truthy, and keeps every other earlier field. */
  lemma LowBatteryRecord(users: Users, d: Record)
    requires Truthy(LowBatteryUserId(d))
    ensures
      var rec, prev, loc := Prior(LowBatteryPatch(users, d), ToStr(LowBatteryUserId(d))), Prior(users, ToStr(LowBatteryUserId(d))), Get(d, "location");
      && (Truthy(loc) ==> Get(rec, "latitude") == Member(loc, "latitude") && Get(rec, "longitude") == Member(loc, "longitude"))
      && (!Truthy(loc) ==> rec.Keys == prev.Keys + {"battery", "lowBattery"})
      && (forall f :: f != "battery" && f != "lowBattery" && f !in LowBatteryPosition(loc) ==> Get(rec, f) == Get(prev, f))
  {
    LowBatteryFieldsShape(d);
  }

  /** For a user not listed before, the record the low-battery patch creates
      carries neither `userId` nor `_id`, so its own key is "undefined". */
  lemma LowBatteryNewUserKey(users: Users, d: Record)
    requires Truthy(LowBatteryUserId(d)) && ToStr(LowBatteryUserId(d)) !in users
    ensures Key(LowBatteryPatch(users, d)[ToStr(LowBatteryUserId(d))]) == "undefined"
  {
    var k := ToStr(LowBatteryUserId(d));
    LowBatteryFieldsShape(d);
    var rec := LowBatteryPatch(users, d)[k];
    assert Get(rec, "userId") == Get(Prior(users, k), "userId") == Undefined;
    assert Get(rec, "_id") == Get(Prior(users, k), "_id") == Undefined;
  }

  /** `user:location-stopped`'s roster half: always offline, with `stoppedAt`, merged onto the prior record. */
  function StoppedPatch(users: Users, d: Record): (r: Users)
    ensures r.Keys == users.Keys + {ToStr(Get(d, "userId"))}
    ensures forall k :: k in users && k != ToStr(Get(d, "userId")) ==> r[k] == users[k]
    ensures var rec := r[ToStr(Get(d, "userId"))];
      && Get(rec, "isOnline") == Bool(false)
      && Get(rec, "stoppedAt") == Get(d, "timestamp")
      && rec.Keys == Prior(users, ToStr(Get(d, "userId"))).Keys + {"isOnline", "stoppedAt"}
      && (forall f :: f != "isOnline" && f != "stoppedAt" ==> Get(rec, f) == Get(Prior(users, ToStr(Get(d, "userId"))), f))
  {
    Patch(users, ToStr(Get(d, "userId")), map["isOnline" := Bool(false), "stoppedAt" := Get(d, "timestamp")])
  }

  /** `removeUserMarker`'s roster half: `delete newUsers[userId]`. */
  function RemoveUser(users: Users, userId: Value): (r: Users)
    ensures r.Keys == users.Keys - {ToStr(userId)}
    ensures forall k :: k in r ==> r[k] == users[k]
  {
    users - {ToStr(userId)}
  }

  /** Removing a user undoes listing them: after a located first event for a new user, removal restores the roster. */
  lemma RemoveUndoesFirstLocation(users: Users, d: Record, now: string)
    requires ReadCoords(d).Located? && Key(d) !in users
    ensures RemoveUser(LocationUpdate(users, d, now), UserId(d)) == users
  {
    var r := RemoveUser(LocationUpdate(users, d, now), UserId(d));
    assert r.Keys == users.Keys;
  }
}

=== FILE: safety.dfy ===
/** Placing a safety score on the map: the coordinate and score aliases the
    effect accepts and the colour band the score falls in. */
module Safety {
  import opened Options
  import opened JsValue
  import opened JsNumber
  import opened Seqs
  import Decimal

  /** `score.latitude || score.lat || score.location?.latitude || score.location?.lat || score.coordinates?.lat` */
  function Lat(s: Record): Value {
    OrAll([Get(s, "latitude"), Get(s, "lat"), Member(Get(s, "location"), "latitude"),
           Member(Get(s, "location"), "lat"), Member(Get(s, "coordinates"), "lat")])
  }

  /** The seven longitude aliases, in the order the effect tries them. */
  function Lng(s: Record): Value {
    OrAll([Get(s, "longitude"), Get(s, "lng"), Get(s, "lon"), Member(Get(s, "location"), "longitude"),
           Member(Get(s, "location"), "lng"), Member(Get(s, "coordinates"), "lng"), Member(Get(s, "coordinates"), "lon")])
  }

  /** `score.score ?? score.safetyScore ?? score.safety_score ?? score.value ?? score.rating ?? 0` */
  function ScoreValue(s: Record): (v: Value)
    ensures !Nullish(Get(s, "score")) ==> v == Get(s, "score")
    ensures Nullish(Get(s, "score")) && !Nullish(Get(s, "safetyScore")) ==> v == Get(s, "safetyScore")
    ensures (Nullish(Get(s, "score")) && Nullish(Get(s, "safetyScore")) && !Nullish(Get(s, "safety_score")))
      ==> v == Get(s, "safety_score")
    ensures (Nullish(Get(s, "score")) && Nullish(Get(s, "safetyScore")) && Nullish(Get(s, "safety_score"))
      && !Nullish(Get(s, "value"))) ==> v == Get(s, "value")
    ensures (Nullish(Get(s, "score")) && Nullish(Get(s, "safetyScore")) && Nullish(Get(s, "safety_score"))
      && Nullish(Get(s, "value")) && !Nullish(Get(s, "rating"))) ==> v == Get(s, "rating")
    ensures (Nullish(Get(s, "score")) && Nullish(Get(s, "safetyScore")) && Nullish(Get(s, "safety_score"))
      && Nullish(Get(s, "value")) && Nullish(Get(s, "rating"))) ==> v == Num(0.0)
    ensures !Nullish(v)
  {
    Coalesce(Get(s, "score"), Coalesce(Get(s, "safetyScore"), Coalesce(Get(s, "safety_score"),
      Coalesce(Get(s, "value"), Coalesce(Get(s, "rating"), Num(0.0))))))
  }

  datatype Band = Safe | Moderate | Danger

  /** `getScoreColor`: green from 80, amber from 50, red below and for anything
      that is not a number. */
  function BandOf(v: Value): (b: Band)
    ensures b == Safe <==> ToNumber(v).Some? && ToNumber(v).value >= 80.0
    ensures b == Moderate <==> ToNumber(v).Some? && 50.0 <= ToNumber(v).value < 80.0
    ensures b == Danger <==> ToNumber(v).None? || ToNumber(v).value < 50.0
  {
    match ToNumber(v)
    case Some(n) => if n >= 80.0 then Safe else if n >= 50.0 then Moderate else Danger
    case None => Danger
  }

  function Rank(b: Band): nat {
    match b
    case Danger => 0
    case Moderate => 1
    case Safe => 2
  }

  /** A higher score never falls in a worse band. */
  lemma BandMonotone(x: real, y: real)
    requires x <= y
    ensures Rank(BandOf(Num(x))) <= Rank(BandOf(Num(y)))
  {
  }

  /** A score marker: where it goes and how it is coloured. */
  datatype Placed = Placed(lat: Value, lng: Value, band: Band)

  function MarkerOf(s: Record): Placed {
    Placed(Lat(s), Lng(s), BandOf(ScoreValue(s)))
  }

  /** One score entry: skipped when either coordinate is falsy (a zero
      coordinate counts as missing), otherwise placed. */
  function Place(s: Record): (r: Option<Placed>)
    ensures r.Some? <==> Truthy(Lat(s)) && Truthy(Lng(s))
    ensures r.Some? ==> r.value.band == BandOf(ScoreValue(s))
  {
    if !Truthy(Lat(s)) || !Truthy(Lng(s)) then None
    else Some(MarkerOf(s))
  }

  predicate Placeable(s: Record) {
    Place(s).Some?
  }

  /** The whole effect: the markers drawn, in list order, and how many
      entries were skipped. */
  function Render(scores: seq<Record>): (r: (seq<Placed>, nat))
    ensures |r.0| + r.1 == |scores|
    ensures r.1 == |scores| - |Positions(scores, Placeable)|
    ensures forall s :: s in scores && Placeable(s) ==> MarkerOf(s) in r.0
  {
    var kept := Filter(scores, Placeable);
    FilterLengthIsPositionCount(scores, Placeable);
    var placed := Map(kept, MarkerOf);
    assert forall s :: s in scores && Placeable(s) ==> MarkerOf(s) in placed by {
      forall s | s in kept ensures MarkerOf(s) in placed {
        var i :| 0 <= i < |kept| && kept[i] == s;
        assert placed[i] == MarkerOf(s);
      }
    }
    (placed, |scores| - |kept|)
  }

  /** Reference definition of the markers drawn: one per entry that `Place`
      places, in list order. */
  function Placements(scores: seq<Record>): seq<Placed>
    decreases |scores|
  {
    if |scores| == 0 then []
    else
      match Place(scores[0])
      case Some(p) => [p] + Placements(scores[1..])
      case None => Placements(scores[1..])
  }

  /** The markers drawn are exactly the reference placements: every placeable
      entry once, in list order, and nothing else. */
  lemma RenderIsPlacements(scores: seq<Record>)
    ensures Render(scores).0 == Placements(scores)
  {
    MarkersOfPlaceable(scores);
  }

  lemma {:induction false} MarkersOfPlaceable(scores: seq<Record>)
    ensures Map(Filter(scores, Placeable), MarkerOf) == Placements(scores)
    decreases |scores|
  {
    if |scores| > 0 {
      var x, rest := scores[0], scores[1..];
      MarkersOfPlaceable(rest);
      assert scores == [x] + rest;
      FilterCons(x, rest, Placeable);
      if Placeable(x) {
        MapCons(x, Filter(rest, Placeable), MarkerOf);
      }
    }
  }

  /** Every marker drawn is the placement of some entry of the list. */
  lemma RenderedArePlacements(scores: seq<Record>, p: Placed)
    requires p in Render(scores).0
    ensures exists s :: s in scores && Place(s) == Some(p)
  {
    var kept := Filter(scores, Placeable);
    var i :| 0 <= i < |kept| && Render(scores).0[i] == p;
    assert kept[i] in kept;
  }

  /** `??` keeps a score of zero: an entry scored 0 is red whatever its other
      score fields say, while an entry with no score field at all falls
      through the aliases. */
  lemma ZeroScoreIsKept(s: Record)
    requires Get(s, "score") == Num(0.0)
    ensures BandOf(ScoreValue(s)) == Danger
  {
  }

  /** An entry with no score under any alias is red. */
  lemma MissingScoreIsDanger(s: Record)
    requires "score" !in s && "safetyScore" !in s && "safety_score" !in s && "value" !in s && "rating" !in s
    ensures ScoreValue(s) == Num(0.0) && BandOf(ScoreValue(s)) == Danger
  {
    var vs := [Get(s, "score"), Get(s, "safetyScore"), Get(s, "safety_score"), Get(s, "value"), Get(s, "rating"), Num(0.0)];
    assert forall j :: 0 <= j < 5 ==> Nullish(vs[j]);
  }

  /** A top-level coordinate beats every nested alias. */
  lemma TopLevelCoordinatesWin(s: Record)
    requires Truthy(Get(s, "latitude")) && Truthy(Get(s, "longitude"))
    ensures Lat(s) == Get(s, "latitude") && Lng(s) == Get(s, "longitude")
  {
  }
}

=== FILE: seqs.dfy ===
/** `Array.prototype.filter` and the facts about it the list reducers share. */
module Seqs {

  /** The elements of `s` that satisfy `keep`, in their original order. */
  function Filter<T(!new)>(s: seq<T>, keep: T -> bool): (r: seq<T>)
    ensures |r| <= |s|
    ensures forall x :: x in r <==> x in s && keep(x)
  {
    if |s| == 0 then []
    else
      assert s == [s[0]] + s[1..];
      if keep(s[0]) then [s[0]] + Filter(s[1..], keep) else Filter(s[1..], keep)
  }

  /** A filter keeps every kept element as often as it occurs and drops the rest. */
  lemma {:induction false} FilterMultiset<T(!new)>(s: seq<T>, keep: T -> bool)
    ensures forall x :: multiset(Filter(s, keep))[x] == if keep(x) then multiset(s)[x] else 0
  {
    if |s| > 0 {
      FilterMultiset(s[1..], keep);
      assert s == [s[0]] + s[1..];
    }
  }

  /** Filtering distributes over concatenation, so relative order is kept. */
  lemma {:induction false} FilterAppend<T(!new)>(a: seq<T>, b: seq<T>, keep: T -> bool)
    ensures Filter(a + b, keep) == Filter(a, keep) + Filter(b, keep)
  {
    if |a| == 0 {
      assert a + b == b;
    } else {
      assert (a + b)[0] == a[0];
      assert (a + b)[1..] == a[1..] + b;
      FilterAppend(a[1..], b, keep);
    }
  }

  /** Filtering a list with one element put in front. */
  lemma FilterCons<T(!new)>(x: T, s: seq<T>, keep: T -> bool)
    ensures Filter([x] + s, keep) == if keep(x) then [x] + Filter(s, keep) else Filter(s, keep)
  {
    assert ([x] + s)[1..] == s;
  }

  /** A filter that keeps everything is the identity. */
  lemma {:induction false} FilterKeepsAll<T(!new)>(s: seq<T>, keep: T -> bool)
    requires forall i :: 0 <= i < |s| ==> keep(s[i])
    ensures Filter(s, keep) == s
  {
    if |s| > 0 {
      FilterKeepsAll(s[1..], keep);
    }
  }

  /** Filtering twice by the same predicate is filtering once. */
  lemma FilterIdempotent<T(!new)>(s: seq<T>, keep: T -> bool)
    ensures Filter(Filter(s, keep), keep) == Filter(s, keep)
  {
    var r := Filter(s, keep);
    assert forall i :: 0 <= i < |r| ==> r[i] in r;
    FilterKeepsAll(r, keep);
  }

  /** Two filters commute. */
  lemma {:induction false} FilterCommutes<T(!new)>(s: seq<T>, p: T -> bool, q: T -> bool)
    ensures Filter(Filter(s, p), q) == Filter(Filter(s, q), p)
  {
    if |s| > 0 {
      FilterCommutes(s[1..], p, q);
    }
  }

  /** Two lists of equal length filter to the same result when their elements
      are kept at the same positions and agree wherever they are kept. */
  lemma {:induction false} FilterAgrees<T(!new)>(a: seq<T>, b: seq<T>, p: T -> bool, q: T -> bool)
    requires |a| == |b|
    requires forall i :: 0 <= i < |a| ==> p(a[i]) == q(b[i])
    requires forall i :: 0 <= i < |a| && p(a[i]) ==> a[i] == b[i]
    ensures Filter(a, p) == Filter(b, q)
  {
    if |a| > 0 {
      FilterAgrees(a[1..], b[1..], p, q);
    }
  }

  /** `f` applied to every element, position for position. */
  function Map<T, U>(s: seq<T>, f: T -> U): (r: seq<U>)
    ensures |r| == |s|
    ensures forall i :: 0 <= i < |s| ==> r[i] == f(s[i])
  {
    seq(|s|, i requires 0 <= i < |s| => f(s[i]))
  }

  lemma MapCons<T, U>(x: T, s: seq<T>, f: T -> U)
    ensures Map([x] + s, f) == [f(x)] + Map(s, f)
  {
    var a, b := Map([x] + s, f), [f(x)] + Map(s, f);
    forall i | 0 <= i < |a| ensures a[i] == b[i] {
      if i > 0 {
        assert ([x] + s)[i] == s[i - 1];
      }
    }
  }

  /** `Array.prototype.reverse` on a copy. */
  function Reverse<T>(s: seq<T>): (r: seq<T>)
    ensures |r| == |s|
    ensures forall i :: 0 <= i < |s| ==> r[i] == s[|s| - 1 - i]
  {
    if |s| == 0 then [] else Reverse(s[1..]) + [s[0]]
  }

  /** The positions of `s` whose element satisfies `p`. */
  ghost function Positions<T(!new)>(s: seq<T>, p: T -> bool): set<nat> {
    set i: nat | i < |s| && p(s[i])
  }

  /** The length of a filter is the number of positions that satisfy the predicate. */
  lemma {:induction false} FilterLengthIsPositionCount<T(!new)>(s: seq<T>, p: T -> bool)
    ensures |Filter(s, p)| == |Positions(s, p)|
  {
    if |s| == 0 {
      assert Positions(s, p) == {};
    } else {
      var t, x := s[..|s| - 1], s[|s| - 1];
      assert s == t + [x];
      FilterAppend(t, [x], p);
      FilterLengthIsPositionCount(t, p);
      var extra: set<nat> := if p(x) then {|t|} else {};
      PositionsSnoc(t, x, p);
      assert |Filter([x], p)| == |extra| by {
        assert [x][1..] == [];
      }
    }
  }

  lemma PositionsSnoc<T(!new)>(t: seq<T>, x: T, p: T -> bool)
    ensures |Positions(t + [x], p)| == |Positions(t, p)| + (if p(x) then 1 else 0)
  {
    var s := t + [x];
    var extra: set<nat> := if p(x) then {|t|} else {};
    var a, b := Positions(s, p), Positions(t, p);
    forall i: nat
      ensures i in a <==> i in b + extra
    {
      if i < |t| {
        assert s[i] == t[i];
      }
    }
    assert a == b + extra;
  }
}

=== FILE: store.dfy ===
/** The dashboard's client-side store as one value, and the socket events,
    user actions and map lifecycle steps that change it. Each event is the
    composition of the reducers of the other modules that its handler calls,
    followed by the effects the change re-runs. */
module Store {
  import opened JsValue
  import Roster
  import Markers
  import Alerts
  import Geofences
  import Videos
  import Layers

  datatype State = State(
    users: Roster.Users,
    markers: Markers.Registry,
    alerts: Alerts.Alerts,
    alertsPanelOpen: bool,
    geofences: Geofences.Geofences,
    showGeofences: bool,
    videos: Videos.Videos,
    overlay: Layers.Overlay,
    mapReady: bool)

  /** What the handlers read from outside the store: the clock and random
      source, whether the socket is connected, and the order in which
      `Object.entries` lists the keys of a roster object. */
  datatype Env = Env(clock: Alerts.Clock, connected: bool, entries: Roster.Users -> seq<string>)

  /** The enumeration is not assumed to be faithful; lemmas that need every
      roster key visited say so with this predicate. */
  predicate ListsRoster(env: Env, users: Roster.Users) {
    forall k :: k in users ==> k in env.entries(users)
  }

  datatype Event =
    | UserLocation(d: Record)
    | AllLocations(data: Record)
    | UserOnline(d: Record)
    | UserOffline(d: Record)
    | ActiveAlerts(data: Record)
    | AlertResolved(data: Record)
    | SosEmergency(d: Record)
    | LowBatteryAlert(d: Record)
    | LocationStopped(d: Record)
    | AllGeofences(data: Record)
    | GeofenceCreated(g: Record)
    | GeofenceUpdated(g: Record)
    | GeofenceDeleted(d: Record)
    | GeofenceToggled(d: Record)
    | VideosListed(data: Record)
    | VideoDeleted(d: Record)
    | VideosBulkDeleted(d: Record)
    | ResolveClicked(alertId: Value)
    | RouteToggled(history: seq<Record>)
    | RouteCleared
    | MapLoaded
    | ThemeSelected

  // ---------------------------------------------------------------------------
  // updateUserMarker and its callers

  /** `updateUserMarker`: the roster entry and, once the map has loaded, the
      marker, both keyed by the user id; nothing at all without coordinates. */
  function UpdateUserMarker(s: State, d: Record, env: Env): (r: State)
    ensures r.users == Roster.LocationUpdate(s.users, d, env.clock.nowIso)
    ensures !Roster.ReadCoords(d).Located? ==> r == s
    ensures Roster.ReadCoords(d).Located? ==>
      r.markers.Keys == if s.mapReady then s.markers.Keys + {Roster.Key(d)} else s.markers.Keys
    ensures r.(users := s.users, markers := s.markers) == s
  {
    match Roster.ReadCoords(d)
    case Located(lng, lat) =>
      var now := env.clock.nowIso;
      s.(users := Roster.LocationUpdate(s.users, d, now),
         markers := Markers.Sync(s.markers, Roster.Key(d), Roster.Normalized(d, lng, lat, now), lng, lat, s.mapReady))
    case _ => s
  }

  /** `admin:all-locations`: `updateUserMarker` on each element of the
      `users` array; a `null` element or one whose coordinates throw ends
      the batch. */
  function AllLocationsBatch(s: State, xs: seq<Value>, env: Env): (r: State)
    ensures r.(users := s.users, markers := s.markers) == s
    decreases |xs|
  {
    if |xs| == 0 then s
    else if Nullish(xs[0]) || Roster.ReadCoords(AsRecord(xs[0])).Throws? then s
    else AllLocationsBatch(UpdateUserMarker(s, AsRecord(xs[0]), env), xs[1..], env)
  }

  /** The batch does to the roster exactly what the roster's own batch
      reducer does. */
  lemma {:induction false} AllLocationsBatchUsers(s: State, xs: seq<Value>, env: Env)
    ensures AllLocationsBatch(s, xs, env).users == Roster.AllLocations(s.users, xs, env.clock.nowIso)
    decreases |xs|
  {
    if |xs| > 0 && !Nullish(xs[0]) && !Roster.ReadCoords(AsRecord(xs[0])).Throws? {
      AllLocationsBatchUsers(UpdateUserMarker(s, AsRecord(xs[0]), env), xs[1..], env);
    }
  }

  /** The record `sos:emergency` hands to `updateUserMarker`. */
  function SosUser(d: Record): Record {
    var user, location := Get(d, "user"), Get(d, "location");
    map[
      "userId" := Member(user, "id"),
      "name" := Member(user, "name"),
      "email" := Member(user, "email"),
      "phone" := Member(user, "phone"),
      "profilePicture" := Member(user, "profilePicture"),
      "latitude" := Member(location, "latitude"),
      "longitude" := Member(location, "longitude"),
      "isEmergency" := Bool(true),
      "isOnline" := Bool(true),
      "alertId" := Get(d, "alertId"),
      "sosMessage" := Get(d, "message"),
      "timestamp" := Get(d, "timestamp")
    ]
  }

  /** `sos:emergency`: the deduplicated alert, the panel forced open, and the
      user upserted when the payload has both a user and a location. */
  function Sos(s: State, d: Record, env: Env): (r: State)
    ensures r.alerts == Alerts.Sos(s.alerts, d, env.clock)
    ensures r.alertsPanelOpen
    ensures Truthy(Get(d, "user")) && Truthy(Get(d, "location")) ==>
      r.users == Roster.LocationUpdate(s.users, SosUser(d), env.clock.nowIso)
    ensures !(Truthy(Get(d, "user")) && Truthy(Get(d, "location"))) ==> r.users == s.users && r.markers == s.markers
    ensures r.(users := s.users, markers := s.markers, alerts := s.alerts, alertsPanelOpen := s.alertsPanelOpen) == s
  {
    var s1 := s.(alerts := Alerts.Sos(s.alerts, d, env.clock), alertsPanelOpen := true);
    if Truthy(Get(d, "user")) && Truthy(Get(d, "location")) then UpdateUserMarker(s1, SosUser(d), env) else s1
  }

  /** The SOS upsert needs the location's own `latitude` and `longitude`:
      a location given only as GeoJSON coordinates lists nobody, because the
      upsert record has no `location` field to fall back on. */
  lemma SosNeedsFlatLocation(s: State, d: Record, env: Env)
    requires Member(Get(d, "location"), "latitude").Undefined?
    ensures Sos(s, d, env).users == s.users
  {
    var u := SosUser(d);
    assert Get(u, "latitude") == Undefined && Get(u, "location") == Undefined;
    assert Roster.ReadCoords(u) == Roster.Unlocated;
  }

  /** `user:online` / `user:offline`: the roster patch and, for a user who
      has a marker, its ring. The handler itself adds no marker. */
  function Presence(s: State, d: Record, online: bool): (r: State)
    ensures r.users == Roster.SetPresence(s.users, d, online)
    ensures r.markers == Markers.SetActive(s.markers, ToStr(Get(d, "userId")), online)
    ensures s.users.Keys <= r.users.Keys && r.markers.Keys == s.markers.Keys
    ensures r.(users := s.users, markers := s.markers) == s
  {
    s.(users := Roster.SetPresence(s.users, d, online),
       markers := Markers.SetActive(s.markers, ToStr(Get(d, "userId")), online))
  }

  /** `alert:low-battery`: the deduplicated alert and the roster patch. The
      handler itself touches no marker. */
  function LowBatteryEvent(s: State, d: Record, env: Env): (r: State)
    ensures r.alerts == Alerts.LowBattery(s.alerts, d, env.clock)
    ensures r.users == Roster.LowBatteryPatch(s.users, d)
    ensures s.users.Keys <= r.users.Keys
    ensures r.(users := s.users, alerts := s.alerts) == s
  {
    s.(alerts := Alerts.LowBattery(s.alerts, d, env.clock), users := Roster.LowBatteryPatch(s.users, d))
  }

  /** `user:location-stopped`: the alert when significant, the user marked
      offline, and an existing marker's ring turned grey. */
  function StoppedEvent(s: State, d: Record, env: Env): (r: State)
    ensures r.alerts == Alerts.LocationStopped(s.alerts, d, env.clock)
    ensures r.users == Roster.StoppedPatch(s.users, d)
    ensures r.markers == Markers.SetActive(s.markers, ToStr(Get(d, "userId")), false)
    ensures s.users.Keys <= r.users.Keys && r.markers.Keys == s.markers.Keys
    ensures r.(users := s.users, markers := s.markers, alerts := s.alerts) == s
  {
    s.(alerts := Alerts.LocationStopped(s.alerts, d, env.clock),
       users := Roster.StoppedPatch(s.users, d),
       markers := Markers.SetActive(s.markers, ToStr(Get(d, "userId")), false))
  }

  // ---------------------------------------------------------------------------
  // The marker catch-up effect

  /** The effect's test for one roster entry: listed, without a marker, and
      with truthy `longitude` and `latitude`. */
  predicate Unmarked(s: State, snapshot: Roster.Users, k: string) {
    k in snapshot && k !in s.markers
    && Truthy(Get(snapshot[k], "longitude")) && Truthy(Get(snapshot[k], "latitude"))
  }

  /** The effect that runs after every roster change and when the map loads:
      `updateUserMarker` on each entry of the roster `snapshot` it rendered
      with, visited in `order`, that passes the test against the live
      markers. The record is keyed by its own id, not by the entry's key. */
  function CatchUp(s: State, snapshot: Roster.Users, order: seq<string>, env: Env): (r: State)
    ensures !s.mapReady ==> r == s
    ensures r.(users := s.users, markers := s.markers) == s
    ensures s.users.Keys <= r.users.Keys && s.markers.Keys <= r.markers.Keys
    ensures s.markers.Keys <= s.users.Keys ==> r.markers.Keys <= r.users.Keys
    decreases |order|
  {
    if !s.mapReady || |order| == 0 then s
    else
      var k := order[0];
      var next := if Unmarked(s, snapshot, k) then UpdateUserMarker(s, snapshot[k], env) else s;
      CatchUp(next, snapshot, order[1..], env)
  }

  /** Every visited entry that passes the test and whose record carries its
      own key as id ends the run with a marker. */
  lemma {:induction false} CatchUpMarks(s: State, snapshot: Roster.Users, order: seq<string>, env: Env, k: string)
    requires s.mapReady && k in order && k in snapshot
    requires Truthy(Get(snapshot[k], "longitude")) && Truthy(Get(snapshot[k], "latitude"))
    requires Roster.Key(snapshot[k]) == k
    ensures k in CatchUp(s, snapshot, order, env).markers
    decreases |order|
  {
    var next := if Unmarked(s, snapshot, order[0]) then UpdateUserMarker(s, snapshot[order[0]], env) else s;
    if order[0] == k {
      assert k in next.markers;
    } else {
      assert k in order[1..];
      CatchUpMarks(next, snapshot, order[1..], env, k);
    }
  }

  /** A run that finds no entry passing the test changes nothing. */
  lemma {:induction false} CatchUpSettles(s: State, snapshot: Roster.Users, order: seq<string>, env: Env)
    requires forall i :: 0 <= i < |order| ==> !Unmarked(s, snapshot, order[i])
    ensures CatchUp(s, snapshot, order, env) == s
    decreases |order|
  {
    if s.mapReady && |order| > 0 {
      assert !Unmarked(s, snapshot, order[0]);
      CatchUpSettles(s, snapshot, order[1..], env);
    }
  }

  /** An entry whose record carries a different id is upserted under that
      id, and its own key stays without a marker, so the effect's test still
      holds for it after the run. */
  lemma CatchUpMissesMiskeyedRecord(s: State, snapshot: Roster.Users, k: string, env: Env)
    requires s.mapReady && Unmarked(s, snapshot, k) && Roster.Key(snapshot[k]) != k
    ensures var r := CatchUp(s, snapshot, [k], env);
      k !in r.markers && Roster.Key(snapshot[k]) in r.markers && Unmarked(r, snapshot, k)
  {
    var next := UpdateUserMarker(s, snapshot[k], env);
    assert [k][1..] == [];
    assert CatchUp(s, snapshot, [k], env) == CatchUp(next, snapshot, [], env);
  }

  /** A low-battery alert with a location, for a user not yet listed, stores
      a record without any id, so the record's own key is "undefined". */
  lemma LowBatteryNewUserHasNoId(s: State, d: Record, env: Env)
    requires Invariant(s)
    requires Truthy(Roster.LowBatteryUserId(d)) && ToStr(Roster.LowBatteryUserId(d)) !in s.users
    requires Truthy(Get(d, "location"))
    requires Truthy(Member(Get(d, "location"), "latitude")) && Truthy(Member(Get(d, "location"), "longitude"))
    ensures var k, r := ToStr(Roster.LowBatteryUserId(d)), LowBatteryEvent(s, d, env);
      Unmarked(r, r.users, k) && Roster.Key(r.users[k]) == "undefined"
  {
    var k, r := ToStr(Roster.LowBatteryUserId(d)), LowBatteryEvent(s, d, env);
    Roster.LowBatteryRecord(s.users, d);
    Roster.LowBatteryNewUserKey(s.users, d);
    assert Roster.Prior(r.users, k) == r.users[k];
  }

  /** Hence, once the map is ready, the catch-up upserts that record under
      the key "undefined" and never marks the user, so its test holds after
      every run and the effect has to run again. */
  lemma LowBatteryNewUserStaysUnmarked(s: State, d: Record, env: Env)
    requires Invariant(s) && s.mapReady
    requires Truthy(Roster.LowBatteryUserId(d)) && ToStr(Roster.LowBatteryUserId(d)) !in s.users
    requires ToStr(Roster.LowBatteryUserId(d)) != "undefined"
    requires Truthy(Get(d, "location"))
    requires Truthy(Member(Get(d, "location"), "latitude")) && Truthy(Member(Get(d, "location"), "longitude"))
    ensures var k, r := ToStr(Roster.LowBatteryUserId(d)), LowBatteryEvent(s, d, env);
      Unmarked(CatchUp(r, r.users, [k], env), r.users, k)
  {
    var k, r := ToStr(Roster.LowBatteryUserId(d)), LowBatteryEvent(s, d, env);
    LowBatteryNewUserHasNoId(s, d, env);
    CatchUpMissesMiskeyedRecord(r, r.users, k, env);
  }

  // ---------------------------------------------------------------------------
  // Map effects

  /** The geofence layers after the reconcile effect reruns on a new list or
      display flag. */
  function Redraw(s: State): (r: State)
    ensures r.(overlay := s.overlay) == s
    ensures r.overlay.shown == s.overlay.shown && r.overlay.path == s.overlay.path
    ensures forall l: Layers.LayerId :: !l.Geo? ==> (l in r.overlay.layers <==> l in s.overlay.layers)
  {
    s.(overlay := s.overlay.(layers := Layers.Reconcile(s.overlay.layers, s.geofences, s.showGeofences, s.mapReady)))
  }

  /** A new geofence list, and the layer reconcile its change triggers. */
  function SetGeofences(s: State, gs: Geofences.Geofences): (r: State)
    ensures r.geofences == gs
    ensures r.(geofences := s.geofences, overlay := s.overlay) == s
    ensures r.overlay.shown == s.overlay.shown && r.overlay.path == s.overlay.path
    ensures forall l: Layers.LayerId :: !l.Geo? ==> (l in r.overlay.layers <==> l in s.overlay.layers)
  {
    Redraw(s.(geofences := gs))
  }

  /** The map's `load`: the flag is set, and the two effects that depend on it
      run, the geofence reconcile and the marker catch-up over the whole
      roster. A second `load` changes nothing. */
  function MapLoad(s: State, env: Env): (r: State)
    ensures r.mapReady
    ensures s.mapReady ==> r == s
    ensures r.alerts == s.alerts && r.alertsPanelOpen == s.alertsPanelOpen && r.geofences == s.geofences
    ensures r.showGeofences == s.showGeofences && r.videos == s.videos
    ensures r.overlay.shown == s.overlay.shown && r.overlay.path == s.overlay.path
    ensures forall l: Layers.LayerId :: !l.Geo? ==> (l in r.overlay.layers <==> l in s.overlay.layers)
    ensures s.markers.Keys <= s.users.Keys ==> r.markers.Keys <= r.users.Keys
  {
    if s.mapReady then s
    else
      var drawn := Redraw(s.(mapReady := true));
      CatchUp(drawn, drawn.users, env.entries(drawn.users), env)
  }

  /** Geofences and users that arrived before the map loaded are drawn and
      marked when it loads. */
  lemma MapLoadCatchesUp(s: State, env: Env)
    requires !s.mapReady && Layers.DistinctKeys(s.geofences) && s.showGeofences
    requires ListsRoster(env, s.users)
    ensures var r := MapLoad(s, env);
      && (forall i :: 0 <= i < |s.geofences| && Layers.Drawable(s.geofences[i]) ==>
            Layers.Triad(Layers.Key(s.geofences[i])) <= r.overlay.layers)
      && (forall k :: (k in s.users && Truthy(Get(s.users[k], "longitude")) && Truthy(Get(s.users[k], "latitude"))
            && Roster.Key(s.users[k]) == k) ==> k in r.markers)
  {
    var drawn := Redraw(s.(mapReady := true));
    var r := MapLoad(s, env);
    assert r.overlay == drawn.overlay;
    forall i | 0 <= i < |s.geofences| && Layers.Drawable(s.geofences[i])
      ensures Layers.Triad(Layers.Key(s.geofences[i])) <= r.overlay.layers
    {
      Layers.ReconcileDraws(s.overlay.layers, s.geofences, true, i);
    }
    forall k | k in s.users && Truthy(Get(s.users[k], "longitude")) && Truthy(Get(s.users[k], "latitude"))
      && Roster.Key(s.users[k]) == k
      ensures k in r.markers
    {
      CatchUpMarks(drawn, drawn.users, env.entries(drawn.users), env, k);
    }
  }

  /** A theme change: `setStyle` discards every source, layer and image,
      then the display flag is set false and true again, so the reconcile
      runs twice on the empty map. The route flag and path are not touched. */
  function ThemeSwitch(s: State): (r: State)
    ensures r.(overlay := s.overlay, showGeofences := s.showGeofences) == s
    ensures r.showGeofences
    ensures r.overlay.shown == s.overlay.shown && r.overlay.path == s.overlay.path
    ensures forall l :: l in r.overlay.layers ==> l.Geo? && Layers.DrawnFor(s.geofences, l.key)
  {
    var cleared := s.(overlay := s.overlay.(layers := {}), showGeofences := false);
    var hidden := Redraw(cleared);
    assert hidden.overlay.layers == {};
    Redraw(hidden.(showGeofences := true))
  }

  /** A theme change while the route is shown leaves it flagged as shown with
      none of its layers on the map. */
  lemma ThemeSwitchDropsShownRoute(s: State)
    requires s.overlay.shown
    ensures ThemeSwitch(s).overlay.shown && Layers.RouteIds !! ThemeSwitch(s).overlay.layers
  {
  }

  // ---------------------------------------------------------------------------
  // Dispatch

  /** Whether an event concerns users and alerts. */
  predicate RosterOrAlertEvent(e: Event) {
    e.UserLocation? || e.AllLocations? || e.UserOnline? || e.UserOffline? || e.ActiveAlerts?
    || e.AlertResolved? || e.SosEmergency? || e.LowBatteryAlert? || e.LocationStopped? || e.ResolveClicked?
  }

  /** The events whose handler can write the roster, after which the marker
      catch-up runs. */
  predicate WritesRoster(e: Event) {
    e.UserLocation? || e.AllLocations? || e.UserOnline? || e.UserOffline?
    || e.SosEmergency? || e.LowBatteryAlert? || e.LocationStopped?
  }

  /** The handlers of those events. */
  function ApplyPeople(s: State, e: Event, env: Env): (r: State)
    requires RosterOrAlertEvent(e)
    ensures r.(users := s.users, markers := s.markers, alerts := s.alerts, alertsPanelOpen := s.alertsPanelOpen) == s
    ensures r.alertsPanelOpen == (s.alertsPanelOpen || e.SosEmergency?)
  {
    match e
    case UserLocation(d) => UpdateUserMarker(s, d, env)
    case AllLocations(data) =>
      (match Get(data, "users") case Arr(xs) => AllLocationsBatch(s, xs, env) case _ => s)
    case UserOnline(d) => Presence(s, d, true)
    case UserOffline(d) => Presence(s, d, false)
    case ActiveAlerts(data) => s.(alerts := Alerts.ActiveAlerts(s.alerts, data, env.clock))
    case AlertResolved(data) => s.(alerts := Alerts.Resolve(s.alerts, Get(data, "alertId")))
    case SosEmergency(d) => Sos(s, d, env)
    case LowBatteryAlert(d) => LowBatteryEvent(s, d, env)
    case LocationStopped(d) => StoppedEvent(s, d, env)
    case ResolveClicked(x) => s.(alerts := Alerts.ResolveLocal(s.alerts, x, env.connected))
  }

  /** A people event: its handler, then the catch-up over the roster it leaves. */
  function ApplyPeopleAndCatchUp(s: State, e: Event, env: Env): (r: State)
    requires RosterOrAlertEvent(e)
    ensures r.(users := s.users, markers := s.markers, alerts := s.alerts, alertsPanelOpen := s.alertsPanelOpen) == s
    ensures r.alertsPanelOpen == (s.alertsPanelOpen || e.SosEmergency?)
  {
    var h := ApplyPeople(s, e, env);
    if WritesRoster(e) then CatchUp(h, h.users, env.entries(h.users), env) else h
  }

  /** The geofence socket events. */
  predicate GeofenceEvent(e: Event) {
    e.AllGeofences? || e.GeofenceCreated? || e.GeofenceUpdated? || e.GeofenceDeleted? || e.GeofenceToggled?
  }

  /** The geofence list a geofence event leaves. */
  function NewGeofences(gs: Geofences.Geofences, e: Event): Geofences.Geofences
    requires GeofenceEvent(e)
  {
    match e
    case AllGeofences(data) => Geofences.ReplaceAll(gs, data)
    case GeofenceCreated(g) => Geofences.Create(gs, g)
    case GeofenceUpdated(g) => Geofences.Update(gs, g)
    case GeofenceDeleted(d) => Geofences.Delete(gs, Get(d, "geofenceId"))
    case GeofenceToggled(d) => Geofences.Toggle(gs, Get(d, "geofenceId"), Get(d, "isActive"))
  }

  /** The events that concern geofences, videos and the map. */
  function ApplyLists(s: State, e: Event, env: Env): State
    requires !RosterOrAlertEvent(e)
  {
    if GeofenceEvent(e) then SetGeofences(s, NewGeofences(s.geofences, e))
    else match e
      case VideosListed(data) => s.(videos := Videos.ReplaceAll(s.videos, data))
      case VideoDeleted(d) => s.(videos := Videos.DeleteVideo(s.videos, Get(d, "videoId")))
      case VideosBulkDeleted(d) => s.(videos := Videos.BulkDelete(s.videos, d))
      case RouteToggled(history) => s.(overlay := Layers.ToggleRoute(s.overlay, history, s.mapReady))
      case RouteCleared => s.(overlay := Layers.ClearRoute(s.overlay))
      case MapLoaded => MapLoad(s, env)
      case ThemeSelected => ThemeSwitch(s)
      case _ => s
  }

  /** One socket event, user action or map lifecycle step. */
  function Apply(s: State, e: Event, env: Env): State {
    if RosterOrAlertEvent(e) then ApplyPeopleAndCatchUp(s, e, env) else ApplyLists(s, e, env)
  }

  /** A `user:online` payload with coordinates, for a user without a marker,
      gets one from the catch-up that follows it once the map is ready. */
  lemma OnlineUserWithCoordinatesIsMarked(s: State, d: Record, env: Env)
    requires s.mapReady
    requires Truthy(Get(d, "userId")) && Truthy(Get(d, "longitude")) && Truthy(Get(d, "latitude"))
    requires ToStr(Get(d, "userId")) in env.entries(Presence(s, d, true).users)
    ensures ToStr(Get(d, "userId")) in Apply(s, UserOnline(d), env).markers
  {
    var k, h := ToStr(Get(d, "userId")), Presence(s, d, true);
    var rec := h.users[k];
    assert Get(rec, "userId") == Get(d, "userId");
    assert Get(rec, "longitude") == Get(d, "longitude") && Get(rec, "latitude") == Get(d, "latitude");
    assert Roster.Key(rec) == k;
    CatchUpMarks(h, h.users, env.entries(h.users), env, k);
  }

  /** `removeUserMarker`: the marker and the roster entry of one user go.
      Nothing in the dashboard calls it. */
  function RemoveUserMarker(s: State, userId: Value): (r: State)
    ensures r.users.Keys == s.users.Keys - {ToStr(userId)}
    ensures r.markers.Keys == s.markers.Keys - {ToStr(userId)}
    ensures r.(users := s.users, markers := s.markers) == s
  {
    s.(users := Roster.RemoveUser(s.users, userId), markers := Markers.Remove(s.markers, userId))
  }

  // ---------------------------------------------------------------------------
  // Invariants

  /** Every marker belongs to a listed user, and the route layers are on the
      map all together or not at all, and never while the route is hidden. */
  predicate Invariant(s: State) {
    s.markers.Keys <= s.users.Keys && Layers.RouteWhole(s.overlay)
  }

  lemma UpdateUserMarkerKeepsInvariant(s: State, d: Record, env: Env)
    requires Invariant(s)
    ensures Invariant(UpdateUserMarker(s, d, env))
  {
  }

  lemma {:induction false} AllLocationsBatchKeepsInvariant(s: State, xs: seq<Value>, env: Env)
    requires Invariant(s)
    ensures Invariant(AllLocationsBatch(s, xs, env))
    decreases |xs|
  {
    if |xs| > 0 && !Nullish(xs[0]) && !Roster.ReadCoords(AsRecord(xs[0])).Throws? {
      UpdateUserMarkerKeepsInvariant(s, AsRecord(xs[0]), env);
      AllLocationsBatchKeepsInvariant(UpdateUserMarker(s, AsRecord(xs[0]), env), xs[1..], env);
    }
  }

  lemma RedrawKeepsInvariant(s: State)
    requires Invariant(s)
    ensures Invariant(Redraw(s))
  {
    Layers.ReconcileKeepsRoute(s.overlay, s.geofences, s.showGeofences, s.mapReady);
  }

  lemma SetGeofencesKeepsInvariant(s: State, gs: Geofences.Geofences)
    requires Invariant(s)
    ensures Invariant(SetGeofences(s, gs))
  {
    RedrawKeepsInvariant(s.(geofences := gs));
  }

  lemma HandlerKeepsInvariant(s: State, e: Event, env: Env)
    requires Invariant(s) && RosterOrAlertEvent(e)
    ensures Invariant(ApplyPeople(s, e, env))
  {
    match e
    case AllLocations(data) =>
      if Get(data, "users").Arr? {
        AllLocationsBatchKeepsInvariant(s, Get(data, "users").elems, env);
      }
    case SosEmergency(d) =>
      var s1 := s.(alerts := Alerts.Sos(s.alerts, d, env.clock), alertsPanelOpen := true);
      UpdateUserMarkerKeepsInvariant(s1, SosUser(d), env);
    case _ =>
  }

  lemma PeopleEventKeepsInvariant(s: State, e: Event, env: Env)
    requires Invariant(s) && RosterOrAlertEvent(e)
    ensures Invariant(Apply(s, e, env))
  {
    HandlerKeepsInvariant(s, e, env);
  }

  lemma GeofenceEventKeepsInvariant(s: State, e: Event, env: Env)
    requires Invariant(s) && GeofenceEvent(e)
    ensures Invariant(Apply(s, e, env))
  {
    SetGeofencesKeepsInvariant(s, NewGeofences(s.geofences, e));
  }

  lemma MapLoadKeepsInvariant(s: State, env: Env)
    requires Invariant(s)
    ensures Invariant(MapLoad(s, env))
  {
    RedrawKeepsInvariant(s.(mapReady := true));
  }

  lemma ListEventKeepsInvariant(s: State, e: Event, env: Env)
    requires Invariant(s) && !RosterOrAlertEvent(e)
    ensures Invariant(Apply(s, e, env))
  {
    if GeofenceEvent(e) {
      GeofenceEventKeepsInvariant(s, e, env);
    } else if e.RouteToggled? {
      Layers.ToggleRouteKeepsWhole(s.overlay, e.history, s.mapReady);
    } else if e.MapLoaded? {
      MapLoadKeepsInvariant(s, env);
    }
  }

  /** Every event keeps the invariant. */
  lemma ApplyKeepsInvariant(s: State, e: Event, env: Env)
    requires Invariant(s)
    ensures Invariant(Apply(s, e, env))
  {
    if RosterOrAlertEvent(e) {
      PeopleEventKeepsInvariant(s, e, env);
    } else {
      ListEventKeepsInvariant(s, e, env);
    }
  }

  lemma RemoveUserMarkerKeepsInvariant(s: State, userId: Value)
    requires Invariant(s)
    ensures Invariant(RemoveUserMarker(s, userId))
  {
  }

  // ---------------------------------------------------------------------------
  // Frames

  /** Roster and alert events leave the geofences, videos and map layers alone. */
  lemma {:induction false} AllLocationsBatchFrame(s: State, xs: seq<Value>, env: Env)
    ensures var r := AllLocationsBatch(s, xs, env);
      r.alerts == s.alerts && r.geofences == s.geofences && r.videos == s.videos && r.overlay == s.overlay
    decreases |xs|
  {
    if |xs| > 0 && !Nullish(xs[0]) && !Roster.ReadCoords(AsRecord(xs[0])).Throws? {
      AllLocationsBatchFrame(UpdateUserMarker(s, AsRecord(xs[0]), env), xs[1..], env);
    }
  }

  lemma RosterEventFrame(s: State, e: Event, env: Env)
    requires RosterOrAlertEvent(e)
    ensures var r := Apply(s, e, env);
      r.geofences == s.geofences && r.showGeofences == s.showGeofences
      && r.videos == s.videos && r.overlay == s.overlay && r.mapReady == s.mapReady
  {
    if e.AllLocations? && Get(e.data, "users").Arr? {
      AllLocationsBatchFrame(s, Get(e.data, "users").elems, env);
    }
  }

  /** Geofence events leave the roster, markers, alerts, videos and route alone. */
  lemma GeofenceEventFrame(s: State, e: Event, env: Env)
    requires GeofenceEvent(e)
    ensures var r := Apply(s, e, env);
      && r.users == s.users && r.markers == s.markers && r.alerts == s.alerts
      && r.alertsPanelOpen == s.alertsPanelOpen && r.videos == s.videos
      && r.overlay.shown == s.overlay.shown
      && Layers.RouteIds * r.overlay.layers == Layers.RouteIds * s.overlay.layers
  {
    var r := SetGeofences(s, NewGeofences(s.geofences, e));
    assert Apply(s, e, env) == ApplyLists(s, e, env) == r;
    SetGeofencesKeepsRoute(s, NewGeofences(s.geofences, e));
  }

  lemma SetGeofencesKeepsRoute(s: State, gs: Geofences.Geofences)
    ensures Layers.RouteIds * SetGeofences(s, gs).overlay.layers == Layers.RouteIds * s.overlay.layers
  {
    var r := SetGeofences(s, gs);
    assert forall l :: l in Layers.RouteIds ==> !l.Geo?;
  }

  /** Video events change the video list and nothing else. */
  lemma VideoEventFrame(s: State, e: Event, env: Env)
    requires e.VideosListed? || e.VideoDeleted? || e.VideosBulkDeleted?
    ensures Apply(s, e, env).(videos := s.videos) == s
  {
  }

  /** Only an SOS opens the alerts panel, and nothing closes it. */
  lemma PanelOnlyOpensOnSos(s: State, e: Event, env: Env)
    ensures Apply(s, e, env).alertsPanelOpen == (s.alertsPanelOpen || e.SosEmergency?)
  {
    if e.AllLocations? && Get(e.data, "users").Arr? {
      AllLocationsBatchFrame(s, Get(e.data, "users").elems, env);
      assert AllLocationsBatch(s, Get(e.data, "users").elems, env).alertsPanelOpen == s.alertsPanelOpen;
    }
  }
}

=== FILE: time_format.dfy ===
/** The two time formatters of the dashboard: the "time ago" label of
    alerts and users, and the minutes:seconds label of video durations. */
module TimeFormat {
  import opened Options
  import opened JsValue
  import opened JsNumber
  import Decimal

  // ---------------------------------------------------------------------------
  // getRelativeTime

  datatype Unit = Seconds | Minutes | Hours | Days

  function UnitSeconds(u: Unit): int {
    match u
    case Seconds => 1
    case Minutes => 60
    case Hours => 3600
    case Days => 86400
  }

  function Suffix(u: Unit): string {
    match u
    case Seconds => "s ago"
    case Minutes => "m ago"
    case Hours => "h ago"
    case Days => "d ago"
  }

  /** The unit chosen for an age in whole seconds: the largest unit not
      exceeding it, and seconds for ages under a minute, negative ones
      included. */
  function UnitFor(diff: int): (u: Unit)
    ensures u == Seconds <==> diff < 60
    ensures u != Seconds ==> UnitSeconds(u) <= diff
    ensures u == Minutes ==> diff < 3600
    ensures u == Hours ==> diff < 86400
  {
    if diff < 60 then Seconds
    else if diff < 3600 then Minutes
    else if diff < 86400 then Hours
    else Days
  }

  /** `Math.floor((now - then) / 1000)`; Dafny's `/` by a positive divisor
      rounds down, as `Math.floor` does. */
  function AgeSeconds(nowMs: int, thenMs: int): int {
    (nowMs - thenMs) / 1000
  }

  /** `getRelativeTime`. `dateOf` stands for `new Date(timestamp)`: the
      instant in milliseconds, or `None` for an invalid date, whose NaN age
      fails every comparison and prints as "NaN". */
  function RelativeTime(timestamp: Value, dateOf: Value -> Option<int>, nowMs: int): (s: string)
    ensures !Truthy(timestamp) ==> s == "N/A"
    ensures Truthy(timestamp) && dateOf(timestamp).None? ==> s == "NaNd ago"
  {
    if !Truthy(timestamp) then "N/A"
    else match dateOf(timestamp)
      case None => "NaNd ago"
      case Some(thenMs) =>
        var diff := AgeSeconds(nowMs, thenMs);
        var u := UnitFor(diff);
        Decimal.IntToString(diff / UnitSeconds(u)) + Suffix(u)
  }

  /** Reads a "time ago" label back into its count and unit. */
  function ParseRelative(s: string): Option<(int, Unit)> {
    if |s| <= 5 || s[|s| - 4..] != " ago" then None
    else
      var u := match s[|s| - 5]
        case 's' => Some(Seconds)
        case 'm' => Some(Minutes)
        case 'h' => Some(Hours)
        case 'd' => Some(Days)
        case _ => None;
      match (u, Decimal.ParseInt(s[..|s| - 5]))
      case (Some(unit), Some(n)) => Some((n, unit))
      case _ => None
  }

  /** The label of a valid timestamp reads back as a count `n` of the chosen
      unit with `n` units at most the age and `n + 1` units more than it: the
      label rounds down and loses nothing else. */
  lemma RelativeTimeRoundTrip(timestamp: Value, dateOf: Value -> Option<int>, nowMs: int)
    requires Truthy(timestamp) && dateOf(timestamp).Some?
    ensures var diff := AgeSeconds(nowMs, dateOf(timestamp).value);
      match ParseRelative(RelativeTime(timestamp, dateOf, nowMs))
      case Some((n, u)) =>
        u == UnitFor(diff) && n * UnitSeconds(u) <= diff < (n + 1) * UnitSeconds(u)
      case None => false
  {
    var diff := AgeSeconds(nowMs, dateOf(timestamp).value);
    var u := UnitFor(diff);
    var n := diff / UnitSeconds(u);
    var digits := Decimal.IntToString(n);
    var s := digits + Suffix(u);
    assert s == RelativeTime(timestamp, dateOf, nowMs);
    assert s[..|s| - 5] == digits;
    assert s[|s| - 5..] == Suffix(u);
    assert s[|s| - 4..] == Suffix(u)[1..] == " ago";
    assert s[|s| - 5] == Suffix(u)[0];
    Decimal.IntToStringRoundTrip(n);
  }

  /** The labels "N/A" and "NaNd ago" read back as nothing, so no valid age
      is confused with them. */
  lemma InvalidLabelsDoNotParse()
    ensures ParseRelative("N/A") == None
    ensures ParseRelative("NaNd ago") == None
  {
    var s := "NaNd ago";
    assert s[..|s| - 5] == "NaN";
    assert !Decimal.AllDigits("NaN") by {
      assert !Decimal.IsDigit("NaN"[0]);
    }
    assert !Decimal.AllDigits("aN") by {
      assert !Decimal.IsDigit("aN"[0]);
    }
  }

  // ---------------------------------------------------------------------------
  // formatDuration

  /** `Math.trunc`, which JavaScript's `%` uses for the quotient. */
  function Trunc(x: real): int {
    if x >= 0.0 then x.Floor else -((-x).Floor)
  }

  /** `s.padStart(2, '0')` */
  function PadStart2(s: string): (r: string)
    ensures |s| >= 2 ==> r == s
    ensures |s| < 2 ==> |r| == 2 && r[2 - |s|..] == s
    ensures forall i :: 0 <= i < 2 - |s| ==> r[i] == '0'
  {
    if |s| >= 2 then s else if |s| == 1 then "0" + s else "00"
  }

  /** `Math.floor(seconds / 60)` */
  function WholeMinutes(seconds: real): int {
    (seconds / 60.0).Floor
  }

  /** `Math.floor(seconds % 60)`, with `%` truncating as JavaScript's does. */
  function LeftoverSeconds(seconds: real): int {
    (seconds - 60.0 * Trunc(seconds / 60.0) as real).Floor
  }

  /** The label of `m` minutes and `sec` seconds. */
  function DurationLabel(m: int, sec: int): string {
    Decimal.IntToString(m) + ":" + PadStart2(Decimal.IntToString(sec))
  }

  /** `formatDuration`: "N/A" for a falsy duration; for anything else whole
      minutes, a colon and the remaining whole seconds padded to two digits,
      each of which reads "NaN" when the value is not a number. */
  function FormatDuration(v: Value): (s: string)
    ensures !Truthy(v) ==> s == "N/A"
    ensures Truthy(v) && ToNumber(v).None? ==> s == "NaN:NaN"
    ensures Truthy(v) && ToNumber(v).Some? ==> ':' in s
  {
    if !Truthy(v) then "N/A"
    else match ToNumber(v)
      case None => "NaN:NaN"
      case Some(x) => DurationLabel(WholeMinutes(x), LeftoverSeconds(x))
  }

  /** For a positive duration the label's two numbers are the whole minutes
      and the whole seconds left over, the latter below 60. */
  lemma DurationParts(seconds: real)
    requires seconds > 0.0
    ensures var mins, secs := WholeMinutes(seconds), LeftoverSeconds(seconds);
      0 <= secs < 60 && 0 <= mins && mins * 60 + secs == seconds.Floor
  {
    var mins := (seconds / 60.0).Floor;
    var rest := seconds - 60.0 * mins as real;
    assert Trunc(seconds / 60.0) == mins;
    assert mins as real <= seconds / 60.0 < mins as real + 1.0;
    assert 0.0 <= rest < 60.0;
    assert seconds == 60.0 * mins as real + rest;
    assert (60.0 * mins as real + rest).Floor == 60 * mins + rest.Floor;
  }

  /** Reads a "m:ss" label back into whole seconds. */
  function ParseDuration(s: string): Option<int> {
    if |s| < 4 || s[|s| - 3] != ':' then None
    else match (Decimal.ParseInt(s[..|s| - 3]), Decimal.ParseNat(s[|s| - 2..]))
      case (Some(m), Some(sec)) => if sec < 60 then Some(m * 60 + sec) else None
      case _ => None
  }

  /** Seconds below a minute pad to exactly two digits that read back as them. */
  lemma PaddedSeconds(secs: int)
    requires 0 <= secs < 60
    ensures |PadStart2(Decimal.IntToString(secs))| == 2
    ensures Decimal.ParseNat(PadStart2(Decimal.IntToString(secs))) == Some(secs)
  {
    var t := Decimal.IntToString(secs);
    var p := PadStart2(t);
    assert t == Decimal.NatToString(secs);
    Decimal.NatToStringRoundTrip(secs);
    if secs >= 10 {
      assert t == Decimal.NatToString(secs / 10) + [Decimal.DigitChar(secs % 10)];
    } else {
      assert p == "0" + t;
      assert p[..1] == "0" && p[1] == t[0];
      assert Decimal.DigitsValue(p) == 10 * Decimal.DigitsValue("0") + Decimal.DigitValue(t[0]);
      assert Decimal.DigitsValue(t) == 10 * Decimal.DigitsValue(t[..0]) + Decimal.DigitValue(t[0]);
    }
  }

  /** A label with seconds below a minute reads back as its total in seconds. */
  lemma DurationLabelRoundTrip(m: int, sec: int)
    requires 0 <= sec < 60
    ensures ParseDuration(DurationLabel(m, sec)) == Some(m * 60 + sec)
  {
    PaddedSeconds(sec);
    Decimal.IntToStringRoundTrip(m);
    var a, p := Decimal.IntToString(m), PadStart2(Decimal.IntToString(sec));
    var s := a + ":" + p;
    assert s[..|s| - 3] == a;
    assert s[|s| - 3] == ':';
    assert s[|s| - 2..] == p;
  }

  /** A positive duration's label reads back as its whole number of seconds. */
  lemma FormatDurationRoundTrip(v: Value, seconds: real)
    requires ToNumber(v) == Some(seconds) && seconds > 0.0
    ensures ParseDuration(FormatDuration(v)) == Some(seconds.Floor)
  {
    NonZeroIsTruthy(v);
    assert FormatDuration(v) == DurationLabel(WholeMinutes(seconds), LeftoverSeconds(seconds));
    DurationParts(seconds);
    DurationLabelRoundTrip(WholeMinutes(seconds), LeftoverSeconds(seconds));
  }

  /** The two labels that carry no number read back as nothing. */
  lemma NonDurationLabelsDoNotParse()
    ensures ParseDuration("N/A") == None
    ensures ParseDuration("NaN:NaN") == None
  {
    assert Decimal.ParseInt("NaN:") == None by {
      assert !Decimal.IsDigit('N');
    }
  }
}

=== FILE: videos.dfy ===
/** The recorded-video list: the list responses that replace it and the two
    deletion broadcasts. */
module Videos {
  import opened JsValue
  import opened Seqs

  type Videos = seq<Record>

  /** `xs.includes(x)`. Without NaN, SameValueZero coincides with `===`. */
  predicate Includes(xs: seq<Value>, x: Value) {
    exists i :: 0 <= i < |xs| && StrictEq(xs[i], x)
  }

  /** `admin:all-videos`, `admin:user-videos` and `admin:alert-videos`: an
      array under `videos` replaces the list; a missing or falsy one leaves it
      alone. */
  function ReplaceAll(vs: Videos, data: Record): (r: Videos)
    ensures !Get(data, "videos").Arr? ==> r == vs
    ensures Get(data, "videos").Arr? ==>
      var xs := Get(data, "videos").elems;
      |r| == |xs| && forall i :: 0 <= i < |xs| ==> r[i] == AsRecord(xs[i])
  {
    match Get(data, "videos")
    case Arr(xs) => seq(|xs|, i requires 0 <= i < |xs| => AsRecord(xs[i]))
    case _ => vs
  }

  /** The payload that sends a video list as an array of objects. */
  function ListPayload(list: Videos): Record {
    map["videos" := Arr(seq(|list|, i requires 0 <= i < |list| => Obj(list[i])))]
  }

  /** Whatever the list held before, a payload carrying a list installs exactly that list. */
  lemma ReplaceAllInstallsList(vs: Videos, list: Videos)
    ensures ReplaceAll(vs, ListPayload(list)) == list
  {
    var r := ReplaceAll(vs, ListPayload(list));
    assert Get(ListPayload(list), "videos").Arr?;
    assert forall i :: 0 <= i < |list| ==> r[i] == list[i];
  }

  /** `admin:video-deleted`: `prev.filter(v => v.id !== videoId)`. */
  function DeleteVideo(vs: Videos, videoId: Value): (r: Videos)
    ensures |r| <= |vs|
    ensures forall v :: v in r <==> v in vs && !StrictEq(Get(v, "id"), videoId)
    ensures forall v :: multiset(r)[v] == if StrictEq(Get(v, "id"), videoId) then 0 else multiset(vs)[v]
  {
    FilterMultiset(vs, v => !StrictEq(Get(v, "id"), videoId));
    Filter(vs, v => !StrictEq(Get(v, "id"), videoId))
  }

  /** The videos whose id `ids` does not include, in their order. */
  function Without(vs: Videos, ids: seq<Value>): (r: Videos)
    ensures |r| <= |vs|
    ensures forall v :: v in r <==> v in vs && !Includes(ids, Get(v, "id"))
    ensures forall v :: multiset(r)[v] == if Includes(ids, Get(v, "id")) then 0 else multiset(vs)[v]
  {
    FilterMultiset(vs, v => !Includes(ids, Get(v, "id")));
    Filter(vs, v => !Includes(ids, Get(v, "id")))
  }

  /** `admin:videos-bulk-deleted`: when `videoIds` is an array, exactly the
      videos whose id it includes go; otherwise nothing happens. */
  function BulkDelete(vs: Videos, data: Record): (r: Videos)
    ensures !Get(data, "videoIds").Arr? ==> r == vs
    ensures Get(data, "videoIds").Arr? ==>
      && |r| <= |vs|
      && (forall v :: v in r <==> v in vs && !Includes(Get(data, "videoIds").elems, Get(v, "id")))
      && (forall v :: multiset(r)[v] == if Includes(Get(data, "videoIds").elems, Get(v, "id")) then 0 else multiset(vs)[v])
  {
    match Get(data, "videoIds")
    case Arr(ids) => Without(vs, ids)
    case _ => vs
  }

  /** A bulk delete of one id is the single delete of that id. */
  lemma BulkDeleteOfOne(vs: Videos, data: Record, id: Value)
    requires Get(data, "videoIds") == Arr([id])
    ensures BulkDelete(vs, data) == DeleteVideo(vs, id)
  {
    var p := v => !Includes([id], Get(v, "id"));
    var q := v => !StrictEq(Get(v, "id"), id);
    forall i | 0 <= i < |vs|
      ensures p(vs[i]) == q(vs[i])
    {
      assert StrictEq(Get(vs[i], "id"), id) == StrictEq(id, Get(vs[i], "id"));
      assert [id][0] == id;
    }
    FilterAgrees(vs, vs, p, q);
  }

  /** Removing two id lists in turn is removing their concatenation. */
  lemma {:induction false} WithoutTwice(vs: Videos, xs: seq<Value>, ys: seq<Value>)
    ensures Without(Without(vs, xs), ys) == Without(vs, xs + ys)
  {
    if |vs| > 0 {
      var v := vs[0];
      IncludesAppend(xs, ys, Get(v, "id"));
      FilterCons(v, vs[1..], w => !Includes(xs, Get(w, "id")));
      assert [v] + vs[1..] == vs;
      WithoutTwice(vs[1..], xs, ys);
      if !Includes(xs, Get(v, "id")) {
        FilterCons(v, Without(vs[1..], xs), w => !Includes(ys, Get(w, "id")));
      }
    }
  }

  /** Two bulk deletes in a row are one bulk delete of both id lists. */
  lemma BulkDeleteTwice(vs: Videos, first: Record, second: Record, joined: Record)
    requires Get(first, "videoIds").Arr? && Get(second, "videoIds").Arr?
    requires Get(joined, "videoIds") == Arr(Get(first, "videoIds").elems + Get(second, "videoIds").elems)
    ensures BulkDelete(BulkDelete(vs, first), second) == BulkDelete(vs, joined)
  {
    WithoutTwice(vs, Get(first, "videoIds").elems, Get(second, "videoIds").elems);
  }

  /** An id is in a joined list exactly when it is in one of the parts. */
  lemma IncludesAppend(xs: seq<Value>, ys: seq<Value>, x: Value)
    ensures Includes(xs + ys, x) <==> Includes(xs, x) || Includes(ys, x)
  {
    if Includes(xs, x) {
      var k :| 0 <= k < |xs| && StrictEq(xs[k], x);
      assert (xs + ys)[k] == xs[k];
    }
    if Includes(ys, x) {
      var k :| 0 <= k < |ys| && StrictEq(ys[k], x);
      assert (xs + ys)[|xs| + k] == ys[k];
    }
    if Includes(xs + ys, x) {
      var k :| 0 <= k < |xs + ys| && StrictEq((xs + ys)[k], x);
      if k < |xs| {
        assert xs[k] == (xs + ys)[k];
      } else {
        assert ys[k - |xs|] == (xs + ys)[k];
      }
    }
  }

  /** Deleting the same video twice is deleting it once. */
  lemma DeleteVideoIdempotent(vs: Videos, id: Value)
    ensures DeleteVideo(DeleteVideo(vs, id), id) == DeleteVideo(vs, id)
  {
    FilterIdempotent(vs, v => !StrictEq(Get(v, "id"), id));
  }
}
